=== FILE: README.md ===
# agent-tool page reduction, modelled in Dafny

The service fetches pages in a browser and reduces the HTML to a small form that keeps
only text and outward links. This project models the pure core of that reduction and
proves properties of the model. The core lives in `tool.py`:

- `clean_tag`, the recursive tree reducer. A text node becomes its stripped text, or
  nothing. An `<a>` whose `href` starts with `mailto:` or `http` becomes a new link leaf.
  Any other `<a>` becomes its visible text. Any other element reduces its children and
  drops the falsy results. It then joins adjacent strings with single spaces and returns
  nothing, the lone string, or a new `<section>` with `" "` inserted before every
  string that is not the first child.
- the script/style pre-pass that the `/scrape` endpoint runs before `clean_tag`.
- `is_meaningful_text`, the email / phone / URL / non-blank classifier.
- the URL fallback of `navigate_to_next_page`. When the URL contains `s=`, it adds 30 to
  the first `s=<digits>` match and rewrites every `s=<digits>` match to the new value, or
  gives no URL when no digits follow any `s=`. Otherwise it appends `s=30` after `&` (when
  the URL has a `?`) or after `?`.
- the clamp of `max_pages` to 1..10.

Modules:

- `Strings`: Python's `strip`, `startswith`, `in` and `' '.join`.
- `Markup`: the parsed tree (`Node`), the reduction result (`Res`), `get_text(strip=True)` and the pre-pass.
- `Reducer`: `clean_tag` as a function (`Clean`), with its merge and section-building steps.
- `CleanTagProcedure`: `clean_tag` as the source runs it, with loops, a buffer and appends. Each method is proved equal to the function.
- `Classifier`: `is_meaningful_text`.
- `Pagination`: the next-page URL and the page clamp.
- `ReducerExamples`, `PaginationExamples`: worked cases.

Three points of the code's behaviour are easy to misread:

- A lone link or a lone nested section is still wrapped in a one-item `<section>` (`LoneLinkWrapped`). Only a lone string is returned bare.
- A child section is kept as a nested section. It is not flattened into its parent (`NestedSectionKept`).
- `" "` goes before every string that is not the section's first child, including a string that follows a link. No space goes before a link (`SpacingAroundLink`).

## Model

| member | source | states |
|---|---|---|
| Strings.Strip | tool.py:44 | `str.strip()` as left strip then right strip; specified by `StripLeft`, `StripRight`, `StripIsStripped`, `StripEmptyIff`, `StripIdempotent` and `StripPadded` |
| Strings.IsSpace | tool.py:44 | the characters `str.isspace()` accepts, which `strip()` removes: space, the controls U+0009-U+000D and U+001C-U+001F, U+0085, U+00A0, U+1680, U+2000-U+200A, U+2028, U+2029, U+202F, U+205F and U+3000 |
| Strings.StartsWith | tool.py:54 | `s.startswith(p)`: `p` is no longer than `s` and equals its first `len(p)` characters |
| Strings.Contains | tool.py:436 | `p in s`: `p` starts at some position of `s`; also the `'?' in current_url` test of line 448 |
| Strings.Join | tool.py:77 | `' '.join`: the parts with one space between neighbours; `JoinWords` and `Reducer.MergeRun` state what it gives |
| Strings.StripLeft | tool.py:44 | the result is a suffix of the input, everything removed is whitespace, and the result does not start with whitespace |
| Strings.StripRight | tool.py:44 | the result is a prefix of the input, everything removed is whitespace, and the result does not end with whitespace |
| Strings.StripIsStripped | tool.py:44 | `strip()` leaves no leading or trailing whitespace |
| Strings.StripEmptyIff | tool.py:45-48 | `strip()` is empty exactly when the text is all whitespace |
| Strings.StripFixesStripped | tool.py:44 | stripping already-stripped text changes nothing |
| Strings.StripIdempotent | tool.py:44 | stripping twice is stripping once |
| Strings.StripPadded | tool.py:44 | a word surrounded by whitespace strips to the word |
| Strings.JoinWords | tool.py:77 | `' '.join` of non-empty stripped strings is non-empty and stripped |
| Markup.VisibleText | tool.py:53 | `get_text(strip=True)`: every text node stripped, concatenated in document order; `VisibleTextStripped` states its shape |
| Markup.VisibleTextStripped | tool.py:53 | `get_text(strip=True)` of a node has no leading or trailing whitespace |
| Markup.VisibleTextAllStripped | tool.py:53 | the same holds for the text of a child list |
| Markup.Prune | tool.py:610-611 | the pre-pass: every `<script>` and `<style>` element is removed with its subtree, everything else is kept in order; specified by `PruneAllOne` and `PruneAllAppend` (what is kept, in order), `PruneScriptFree`, `PruneAllScriptFree`, `PruneKeepsScriptFree` and `PruneIdempotent` |
| Markup.PruneAllOne | tool.py:610-611 | a lone child is dropped exactly when it is a script or style, and is otherwise kept with its own subtree pruned |
| Markup.PruneAllAppend | tool.py:610-611 | the pre-pass handles the children of a list independently and keeps them in order: pruning a concatenation is the concatenation of the prunings |
| Markup.PruneScriptFree | tool.py:610-611 | after the pre-pass no `<script>` or `<style>` element remains anywhere in the tree |
| Markup.PruneAllScriptFree | tool.py:610-611 | every child kept by the pre-pass is neither script nor style and is script-free |
| Markup.PruneKeepsScriptFree | tool.py:610-611 | the pre-pass leaves a script-free tree unchanged |
| Markup.PruneIdempotent | tool.py:610-611 | running the pre-pass twice is running it once |
| Reducer.Clean | tool.py:41-106 | `clean_tag` as a recursive function; specified per branch by `CleanTextNode`, `CleanAnchor` and `CleanElement`, and as a whole by `CleanWellFormed` and `CleanTruthy` |
| Reducer.Survivors | tool.py:65-69 | the truthy child reductions in order; specified by `SurvivorsAppend`, `SurvivorsSnoc` and `SurvivorsWellFormed` |
| Reducer.Merge | tool.py:72-86 | the run merge as a reference definition; specified by `MergeHead`, `MergeNoAdjacentStrs`, `MergeKeepsNonStrs`, `MergeRun`, `MergeFixesNoAdjacent` and `MergeIdempotent`, and matched by `CleanTagProcedure.MergeRuns` |
| Reducer.Spaced | tool.py:97-105 | the section contents as a reference definition; specified by `SpacedEmpty`, `SpacedUnspace`, `SpacedProperly` and `SpacedElements`, and matched by `CleanTagProcedure.BuildSection` |
| Reducer.Wrap | tool.py:88-106 | nothing for no items, the bare string for a lone string, a section otherwise; `CleanElement` and `WrapWellFormed` state it |
| Reducer.Href | tool.py:52 | `tag.get('href', '')`: the href attribute's value, or the empty string when the tag has none |
| Reducer.KeepsLink | tool.py:54 | an `<a>` is kept as a link exactly when its href starts with `mailto:` or with `http` |
| Reducer.Truthy | tool.py:68 | the `if cleaned_child` test: `None` and the empty string are falsy, every other string and every tag is truthy |
| Reducer.CleanTextNode | tool.py:43-48 | a text node gives None exactly when it is all whitespace, and otherwise its stripped text, which is a non-empty stripped word |
| Reducer.CleanAnchor | tool.py:51-62 | an `<a>` becomes a link exactly when its href (missing counts as "") starts with `mailto:` or `http`; the link carries that href and the visible text; otherwise the result is the visible text as a string when it is non-empty, and None exactly when it is empty; without an href no link is produced |
| Reducer.CleanTruthy | tool.py:68 | the truthiness filter drops exactly the None results: no reduction is an empty string |
| Reducer.CleanElement | tool.py:65-106 | a non-`<a>` element gives None exactly when no child survives, the bare string when the merge leaves one string, and a section in every other case (a lone link or a lone section included), whose contents, with separators removed, are the merged survivors |
| Reducer.CleanWellFormed | tool.py:41-106 | every reduction is well formed: strings are non-empty and stripped, a section is non-empty, holds no two adjacent strings, is not a lone string, and is spaced exactly as built |
| Reducer.SurvivorsWellFormed | tool.py:65-69 | every surviving child reduction is well formed |
| Reducer.SurvivorsAppend | tool.py:66-69 | the child filter distributes over concatenation of the child list, so children are processed in order and independently |
| Reducer.SurvivorsSnoc | tool.py:65-69 | reducing one more child appends exactly that child's surviving reduction |
| Reducer.MergeHead | tool.py:73-86 | merging never lengthens the list, is empty exactly for an empty list, and keeps the kind of the first item |
| Reducer.MergeNoAdjacentStrs | tool.py:73-86 | after merging no two strings are adjacent |
| Reducer.MergeKeepsNonStrs | tool.py:80-85 | merging keeps every non-string item, in order |
| Reducer.MergeRun | tool.py:77-86 | a maximal run of strings becomes one string, their single-space join, followed by the merge of the rest |
| Reducer.MergeFixesNoAdjacent | tool.py:73-86 | a list with no adjacent strings is unchanged by merging |
| Reducer.MergeIdempotent | tool.py:73-86 | merging twice is merging once |
| Reducer.MergeWellFormed | tool.py:73-86 | merging well-formed items gives well-formed items |
| Reducer.SpacedEmpty | tool.py:97-105 | the section contents are empty exactly when there are no items |
| Reducer.SpacedUnspace | tool.py:97-105 | removing the inserted `" "` separators from the section contents gives back the items |
| Reducer.UnspaceAppend | tool.py:97-105 | removing separators distributes over concatenation |
| Reducer.SpacedProperly | tool.py:99-103 | every separator stands between two children and is followed by a string; every string other than the first child is preceded by a separator |
| Reducer.AppendProperly | tool.py:98-105 | one append step of the section builder keeps the separators properly placed |
| Reducer.SpacedElements | tool.py:97-105 | every child of the section is either a separator or one of the items |
| Reducer.WrapWellFormed | tool.py:88-106 | wrapping merged well-formed items gives a well-formed result |
| CleanTagProcedure.CleanTag | tool.py:41-106 | the procedure with its loops returns exactly `Clean` of the node |
| CleanTagProcedure.CleanChildren | tool.py:65-69 | the child loop reduces every child in order and returns exactly the truthy reductions `Survivors` |
| CleanTagProcedure.MergeRuns | tool.py:73-86 | the buffer loop, flushed before every tag and at the end, returns exactly the run-merge `Merge` |
| CleanTagProcedure.BuildSection | tool.py:97-105 | the append loop builds exactly the spaced contents `Spaced` |
| CleanTagProcedure.FlushBeforeTag | tool.py:83-85 | flushing the buffer before a tag equals merging the buffered strings, the tag and the rest |
| CleanTagProcedure.FlushAtEnd | tool.py:75-78 | the final flush emits one joined string when the buffer is non-empty, and nothing otherwise |
| CleanTagProcedure.FlushBuffer | tool.py:75-78 | the flush appends the merge of the buffered strings (their single-space join when there are any, nothing otherwise) and leaves the buffer empty |
| ReducerExamples.PaddedLinkKept | tool.py:51-59 | a `mailto:`/`http` link whose text is padded with whitespace keeps the href and the trimmed text |
| ReducerExamples.OtherLinkDemoted | tool.py:60-62 | a link with any other href reduces to its text |
| ReducerExamples.LinkPrefixes | tool.py:54 | `mailto:a@b.com` and `httpx:y` are kept; a relative path and the empty href are not |
| ReducerExamples.EmptyLinkKept | tool.py:54-59 | a kept link with no text is still a link, with empty text |
| ReducerExamples.MergeAfterUnwrap | tool.py:65-94 | blank text, a `<div>` holding "Hello", then "world" reduce to the single string "Hello world" |
| ReducerExamples.EmptyElements | tool.py:88-90 | an element with no children, or whose only child is an empty non-kept link, gives None |
| ReducerExamples.LoneString | tool.py:92-94 | an element whose only child is a word gives that word bare |
| ReducerExamples.LoneLinkWrapped | tool.py:96-106 | an element whose only child is a kept link gives a one-item section |
| ReducerExamples.LoneEmptyLink | tool.py:96-106 | a lone kept link with no text is wrapped in a section too |
| ReducerExamples.SpacingAroundLink | tool.py:97-105 | text, link, text gives `[text, link, " ", text]` |
| ReducerExamples.NestedSectionKept | tool.py:96-106 | a child section is nested inside the parent section, not flattened |
| ReducerExamples.ScriptOnlyBody | tool.py:610-614 | a body whose only child is a script reduces to nothing after the pre-pass |
| Classifier.Search | tool.py:25-35 | `pattern.search(t)`: the pattern matches at some position; `SearchSuffixes`, `SearchIsVisible` and `PatternsFound` state it |
| Classifier.MatchesAt | tool.py:25-27 | one of the three patterns matches at the start of the text, reduced to the shortest matches: an address character, `@`, address characters, `.` and a word character for email; three digits, an optional `)`, an optional `-`, `.` or space, and four digits for phone; `http://` or `https://` and one non-space character for URL |
| Classifier.IsMeaningfulText | tool.py:29-39 | the three searches then the non-blank test; `MeaningfulIffNotBlank` gives its whole meaning |
| Classifier.MatchIsVisible | tool.py:25-27 | text matching any of the three patterns contains a non-space character |
| Classifier.SearchIsVisible | tool.py:30-35 | a successful pattern search implies the text is not all whitespace |
| Classifier.MeaningfulIffNotBlank | tool.py:29-39 | the text is meaningful exactly when its stripped form is non-empty, that is, when it is not all whitespace: the pattern tests never change the answer |
| Classifier.SearchSuffixes | tool.py:30-35 | a search fails when the pattern matches at no position |
| Classifier.PatternsFound | tool.py:25-27 | an address, a phone number and an absolute URL are each found; `http://` followed by a space is not a URL |
| Pagination.Offsets | tool.py:438 | the `s=<digits>` occurrences read left to right without overlap, as repeated `re.search` finds them; `NoMarkerNoOffsets`, `RunsOffsets` and the examples state it |
| Pagination.OffsetAt | tool.py:438 | `s=\d` matches at the start of the text: `s`, `=` and a digit, where the `s=(\d+)` search can succeed |
| Pagination.Value | tool.py:440 | `int()` of a string of digits: its decimal value, read most significant digit first |
| Pagination.Replace | tool.py:442 | `re.sub` of every occurrence; `ReplaceFill`, `ReplaceSplit` and `ReplaceOffsets` state it completely |
| Pagination.Advance | tool.py:436-451 | the URL fallback under a rule for where an offset may start; `AdvanceSpec` gives its meaning |
| Pagination.NextPageUrl | tool.py:436-451 | the fallback as written (offset matched anywhere); `AdvanceSpec` with that rule and `PaginationExamples.NextPageUrlOverwritesOtherParameter` state it |
| Pagination.NextPageUrlParam | tool.py:435-443 | the fallback with the offset read and rewritten only as the `s` parameter; `AdvanceSpec` with that rule and `PaginationExamples.NextPageUrlParamAdvancesOffset` state it |
| Pagination.Runs | tool.py:438 | the digit runs of the occurrences |
| Pagination.Gaps | tool.py:442 | the text of the URL around the digit runs |
| Pagination.Fill | tool.py:442 | the pieces with runs put back between them |
| Pagination.DigitRun | tool.py:438 | the run is all digits and maximal |
| Pagination.Decimal | tool.py:441-442 | the decimal rendering is non-empty, all digits, without a leading zero, and reads back as the number |
| Pagination.ReplaceHead | tool.py:442 | the rewrite is empty only for the empty URL and keeps its first character |
| Pagination.ReplaceKeepsOffsetAt | tool.py:442 | the rewrite starts with an `s=<digit>` occurrence exactly when the URL does |
| Pagination.ReplaceOffsets | tool.py:442 | after the rewrite, every offset occurrence holds the new value, and there are as many occurrences as before |
| Pagination.RunsOffsets | tool.py:438-440 | each digit run is non-empty, all digits, and read by `int` as the offset at its position |
| Pagination.SplitFill | tool.py:442 | putting the runs back between the pieces around them gives the URL back: the split loses nothing |
| Pagination.SplitOfRewritten | tool.py:442 | a rewritten occurrence splits into the new digits and the pieces of the text after it |
| Pagination.ReplaceSplit | tool.py:442 | the rewrite keeps every piece of the URL around the digit runs, and every run becomes the new digits |
| Pagination.ReplaceFill | tool.py:442 | the rewrite is exactly the URL with each digit run replaced by the new digits and nothing else changed |
| Pagination.NoMarkerNoOffsets | tool.py:436-438 | a URL without "s=" holds no offset |
| Pagination.SeparatedThirty | tool.py:448-449 | the appended `&s=30` or `?s=30` holds exactly one offset, 30 |
| Pagination.AppendedOffset | tool.py:449-450 | appending `&s=30` or `?s=30` to a URL without "s=" gives exactly one offset, 30 |
| Pagination.AdvanceAppends | tool.py:447-449 | without "s=", the separator and `s=30` are appended, and 30 is then the only offset |
| Pagination.AdvanceRewrites | tool.py:438-442 | with an offset, the next URL is the old one with every digit run replaced by the first offset plus 30, and nothing else changed |
| Pagination.AdvanceSpec | tool.py:436-451 | without "s=", `s=30` is appended after `&` when the URL has `?` and after `?` otherwise, and the only offset is then 30; with "s=" and no digits after it, no URL; otherwise the new URL is the old one with every digit run replaced by the first old offset plus 30, every piece around the runs unchanged |
| Pagination.ClampPages | tool.py:550-553 | the page count is in 1..10 and is the value in that range nearest to the request |
| PaginationExamples.OffsetsAsWritten | tool.py:438 | as written, `?ps=2&s=30` holds the offsets 2 and 30 |
| PaginationExamples.OffsetsAsParameter | tool.py:438 | bound to the parameter, `?ps=2&s=30` holds the single offset 30 |
| PaginationExamples.ReplaceAsWritten | tool.py:442 | as written, the rewrite of `?ps=2&s=30` also rewrites the `ps` parameter |
| PaginationExamples.ReplaceAsParameter | tool.py:442 | bound to the parameter, the rewrite of `?ps=2&s=30` changes only `s` |
| PaginationExamples.NextPageUrlOverwritesOtherParameter | tool.py:436-443 | as written, the next page of `?ps=2&s=30` is `?ps=32&s=32` |
| PaginationExamples.NextPageUrlParamAdvancesOffset | tool.py:436-443 | bound to the parameter, the next page of `?ps=2&s=30` is `?ps=2&s=60` |

## Left out

- Browser management, the search scrapers, the Flask endpoints, logging, sleeps and all network I/O. They are outside the pure core.
- HTML parsing itself, and `soup.body or soup`. The model starts from a parsed tree.
- Serialising the reduction back to HTML with `str()`, including escaping. The round trip through rendering and reparsing is therefore not modelled.
- Comment, CDATA and doctype nodes. Parsed trees here hold only text nodes and elements, so the way `get_text` skips comments while `clean_tag` keeps their text is not captured.
- A malformed node (an element without a tag name) cannot be represented, so no error for it is modelled. The source raises none either.
- Classifier.IsMeaningfulText: Unicode `\w` and `\d` are read as their ASCII classes. Each regex search is modelled by the shortest forms every match must contain, which decides whether a search succeeds but not which span it matches.
- Reducer.Clean: `clean_tag` recurses once per level of nesting (tool.py:67), so a page nested deeper than Python's recursion limit (1000 by default) raises `RecursionError`, which the handler at tool.py:624-630 turns into a 500 response. `Clean` and `CleanTagProcedure.CleanTag` reduce trees of any depth.
- `is_meaningful_text` is defined but never called by the reducer, so it is modelled on its own.
- Pagination.AdvanceSpec: an offset is read as an unbounded natural number, and other Unicode decimal digits matched by `\d` are not modelled. Python (from 3.11, and in the 3.7 to 3.10 security releases) refuses `int()` of a decimal string longer than 4300 digits with a `ValueError`, which tool.py:454 catches, so the source produces no next URL for such an offset where `Advance` produces one.
- The scroll and button-click strategies of `navigate_to_next_page`. They depend on the live page.
- Reading `max_pages` from the request, with its default of 3 and the error on a non-numeric value. The model starts from an integer.
- Pagination.ClampPages: on the POST path (tool.py:538) `max_pages` comes from the JSON body unparsed, so a float such as 5.5 passes the clamp unchanged and a string makes the comparison fail; only integer requests are modelled.
- `extract_base_url` and the DuckDuckGo result parsing. They are not part of the reducer.

## Findings

| source | as written | input that shows it | evidently intended | confidence | as-written member | corrected member |
|---|---|---|---|---|---|---|
| tool.py:437-442 | the offset is read and rewritten with a pattern that matches `s=` followed by digits anywhere in the URL, including inside another parameter name such as `ps` | `?ps=2&s=30` gives `?ps=32&s=32`: the first match, 2, is taken as the offset, and both occurrences are overwritten | read and advance only the `s` query parameter, giving `?ps=2&s=60`; the correction covers reading and rewriting the offset only: the substring test of line 436 is kept, so `?ps=2` still gives no URL rather than `?ps=2&s=30` | medium; not executed | PaginationExamples.NextPageUrlOverwritesOtherParameter | PaginationExamples.NextPageUrlParamAdvancesOffset |

=== FILE: classifier.dfy ===
/**
 * `is_meaningful_text` (tool.py): true when the text contains an email address, a
 * phone number or an absolute URL, or is not blank once stripped.
 *
 * Only whether each pattern occurs matters, so each regex search is modelled by a
 * search for the shortest substrings every match must contain and that are matches
 * themselves:
 *   email: one address character, "@", one or more address characters, ".", one word character;
 *   phone: three digits, an optional ")", an optional separator, four digits;
 *   url:   "http://" or "https://" followed by one non-space character.
 * Word characters and digits are read as their ASCII classes, and space as `IsSpace`.
 */
module Classifier {
  import opened Strings

  /** `\w` over ASCII. */
  predicate IsWordChar(c: char)
  {
    'a' <= c <= 'z' || 'A' <= c <= 'Z' || IsDigit(c) || c == '_'
  }

  /** `[\w.-]`. */
  predicate IsAddressChar(c: char)
  {
    IsWordChar(c) || c == '.' || c == '-'
  }

  /** `[-.\s]`, the optional separator inside a phone number. */
  predicate IsPhoneSeparator(c: char)
  {
    c == '-' || c == '.' || IsSpace(c)
  }

  datatype Pattern = Email | Phone | Url

  /** `[\w.-]+\.\w` matches at the start of `u`. */
  predicate DomainAt(u: string)
  {
    |u| >= 1 && IsAddressChar(u[0])
    && ((|u| >= 3 && u[1] == '.' && IsWordChar(u[2])) || DomainAt(u[1..]))
  }

  predicate FourDigitsAt(u: string)
  {
    |u| >= 4 && IsDigit(u[0]) && IsDigit(u[1]) && IsDigit(u[2]) && IsDigit(u[3])
  }

  /** `[-.\s]?\d{4}` matches at the start of `u`. */
  predicate LineNumberAt(u: string)
  {
    FourDigitsAt(u) || (|u| >= 1 && IsPhoneSeparator(u[0]) && FourDigitsAt(u[1..]))
  }

  /** The pattern matches at the start of `u`. */
  predicate MatchesAt(p: Pattern, u: string)
  {
    match p
    case Email => |u| >= 2 && IsAddressChar(u[0]) && u[1] == '@' && DomainAt(u[2..])
    case Phone =>
      |u| >= 3 && IsDigit(u[0]) && IsDigit(u[1]) && IsDigit(u[2])
      && (LineNumberAt(u[3..]) || (|u| >= 4 && u[3] == ')' && LineNumberAt(u[4..])))
    case Url =>
      (StartsWith(u, "http://") && |u| > 7 && !IsSpace(u[7]))
      || (StartsWith(u, "https://") && |u| > 8 && !IsSpace(u[8]))
  }

  /** `pattern.search(t)` succeeds: the pattern matches at some position of `t`. */
  predicate Search(p: Pattern, t: string)
  {
    t != [] && (MatchesAt(p, t) || Search(p, t[1..]))
  }

  predicate IsMeaningfulText(t: string)
  {
    if Search(Email, t) then true
    else if Search(Phone, t) then true
    else if Search(Url, t) then true
    else Strip(t) != ""
  }

  /** Every match starts with, or holds at its second character, something that is not whitespace. */
  lemma MatchIsVisible(p: Pattern, u: string)
    requires MatchesAt(p, u)
    ensures !AllSpace(u)
  {
    match p
    case Email => assert !IsSpace(u[1]);
    case Phone => assert !IsSpace(u[0]);
    case Url => assert u[0] == 'h';
  }

  /** A text in which a pattern occurs is not blank. */
  lemma {:induction false} SearchIsVisible(p: Pattern, t: string)
    requires Search(p, t)
    ensures !AllSpace(t)
  {
    if MatchesAt(p, t) {
      MatchIsVisible(p, t);
    } else {
      SearchIsVisible(p, t[1..]);
      var i :| 0 <= i < |t[1..]| && !IsSpace(t[1..][i]);
      assert t[i + 1] == t[1..][i];
    }
  }

  /** The pattern checks never change the outcome: text is meaningful exactly when it is not blank. */
  lemma MeaningfulIffNotBlank(t: string)
    ensures IsMeaningfulText(t) <==> Strip(t) != ""
    ensures IsMeaningfulText(t) <==> !AllSpace(t)
  {
    StripEmptyIff(t);
    if Search(Email, t) {
      SearchIsVisible(Email, t);
    } else if Search(Phone, t) {
      SearchIsVisible(Phone, t);
    } else if Search(Url, t) {
      SearchIsVisible(Url, t);
    }
  }

  /** Each pattern is found where its shortest match occurs inside whitespace. */
  lemma PatternsFound()
    ensures Search(Email, " a@b.c")
    ensures Search(Phone, " 555-1234")
    ensures Search(Url, " http://x")
    ensures !Search(Url, "http:// ")
  {
    assert MatchesAt(Email, "a@b.c") by {
      assert "a@b.c"[2..] == "b.c";
      assert DomainAt("b.c");
    }
    assert " a@b.c"[1..] == "a@b.c";
    assert MatchesAt(Phone, "555-1234") by {
      assert "555-1234"[3..] == "-1234";
      assert "-1234"[1..] == "1234";
    }
    assert " 555-1234"[1..] == "555-1234";
    assert MatchesAt(Url, "http://x") by {
      assert "http://x"[..7] == "http://";
    }
    assert " http://x"[1..] == "http://x";
    NoUrlInBlankTail();
  }

  lemma NoUrlInBlankTail()
    ensures !Search(Url, "http:// ")
  {
    var t := "http:// ";
    forall k | 0 <= k < |t| ensures !MatchesAt(Url, t[k..]) {
      if k > 0 {
        assert t[k..][0] != 'h';
      }
    }
    SearchSuffixes(Url, t);
  }

  /** A search fails when the pattern matches at no suffix. */
  lemma {:induction false} SearchSuffixes(p: Pattern, t: string)
    requires forall k :: 0 <= k < |t| ==> !MatchesAt(p, t[k..])
    ensures !Search(p, t)
  {
    if t != [] {
      assert t[0..] == t;
      forall k | 0 <= k < |t[1..]| ensures !MatchesAt(p, t[1..][k..]) {
        assert t[1..][k..] == t[k + 1..];
      }
      SearchSuffixes(p, t[1..]);
    }
  }
}

=== FILE: clean_tag.dfy ===
/**
 * `clean_tag` as the source runs it: a recursive procedure that collects the truthy
 * child reductions in a loop, merges string runs through a buffer that is flushed
 * before every tag and at the end, and appends the survivors one by one to a new
 * `<section>`. Each step is proved to compute the specification in `Reducer`.
 */
module CleanTagProcedure {
  import opened Wrappers
  import opened Strings
  import opened Markup
  import opened Reducer

  method CleanTag(n: Node) returns (r: Option<Res>)
    ensures r == Clean(n)
    decreases n, 1
  {
    match n
    case Text(s) =>
      var text := Strip(s);
      if text != "" {
        r := Some(Str(text));
      } else {
        r := None;
      }
    case Element(name, attrs, cs) =>
      if name == "a" {
        var href := Href(attrs);
        var text := VisibleText(n);
        if KeepsLink(href) {
          r := Some(Anchor(href, text));
        } else if text != "" {
          r := Some(Str(text));
        } else {
          r := None;
        }
        return;
      }
      var cleaned := CleanChildren(n);
      var merged := MergeRuns(cleaned);
      if merged == [] {
        r := None;
      } else if |merged| == 1 && merged[0].Str? {
        r := Some(merged[0]);
      } else {
        var contents := BuildSection(merged);
        r := Some(Section(contents));
      }
  }

  /** The child loop: each child is reduced in turn and the truthy results are appended. */
  method CleanChildren(n: Node) returns (cleaned: seq<Res>)
    requires n.Element?
    ensures cleaned == Survivors(n.children)
    decreases n, 0
  {
    var cs := n.children;
    cleaned := [];
    var i := 0;
    while i < |cs|
      invariant 0 <= i <= |cs|
      invariant cleaned == Survivors(cs[..i])
    {
      var child := CleanTag(cs[i]);
      ChildStep(cs, i, cleaned, child);
      if Truthy(child) {
        cleaned := cleaned + [child.value];
      }
      i := i + 1;
    }
    assert cs[..|cs|] == cs;
  }

  /** Appending the reduction of the next child when it is truthy: the invariant of `CleanChildren`. */
  lemma ChildStep(cs: seq<Node>, i: nat, cleaned: seq<Res>, child: Option<Res>)
    requires i < |cs| && cleaned == Survivors(cs[..i]) && child == Clean(cs[i])
    ensures (if Truthy(child) then cleaned + [child.value] else cleaned) == Survivors(cs[..i + 1])
  {
    assert Survivors(cs[..i + 1]) == cleaned + Kept(child) by {
      SurvivorsPrefix(cs, i);
    }
    KeptAppend(cleaned, child);
  }

  lemma SurvivorsPrefix(cs: seq<Node>, i: nat)
    requires i < |cs|
    ensures Survivors(cs[..i + 1]) == Survivors(cs[..i]) + Kept(Clean(cs[i]))
  {
    assert cs[..i + 1] == cs[..i] + [cs[i]];
    SurvivorsSnoc(cs[..i], cs[i]);
  }

  /** The loop's conditional append adds exactly the kept reduction. */
  lemma KeptAppend(cleaned: seq<Res>, child: Option<Res>)
    ensures (if Truthy(child) then cleaned + [child.value] else cleaned) == cleaned + Kept(child)
  {
    if !Truthy(child) {
      assert cleaned + [] == cleaned;
    }
  }

  /** The merge loop: strings go to a buffer, which is joined and flushed before each tag and at the end. */
  method MergeRuns(items: seq<Res>) returns (result: seq<Res>)
    ensures result == Merge(items)
  {
    result := [];
    var buffer: seq<string> := [];
    var i := 0;
    ghost var whole := Merge(items);
    assert Strs(buffer) + items[i..] == items;
    while i < |items|
      invariant 0 <= i <= |items|
      invariant whole == result + Merge(Strs(buffer) + items[i..])
    {
      var item := items[i];
      if item.Str? {
        BufferStep(whole, items, i, result, buffer);
        buffer := buffer + [item.s];
      } else {
        TagStep(whole, items, i, result, buffer);
        result, buffer := FlushBuffer(result, buffer);
        result := result + [item];
        EmptyBuffer(whole, result, items[i + 1..]);
      }
      i := i + 1;
    }
    FinalStep(whole, items, result, buffer);
    result, buffer := FlushBuffer(result, buffer);
  }

  /** `flush_buffer`: a non-empty buffer is joined with single spaces onto the result and emptied. */
  method FlushBuffer(result: seq<Res>, buffer: seq<string>) returns (flushed: seq<Res>, emptied: seq<string>)
    ensures flushed == result + Merge(Strs(buffer))
    ensures emptied == []
  {
    flushed, emptied := result, buffer;
    if buffer != [] {
      flushed := flushed + [Str(Join(buffer))];
      emptied := [];
    }
    FlushAtEnd(buffer);
  }

  /** Buffering a string keeps the loop invariant of `MergeRuns`. */
  lemma BufferStep(whole: seq<Res>, items: seq<Res>, i: nat, result: seq<Res>, buffer: seq<string>)
    requires i < |items| && items[i].Str?
    requires whole == result + Merge(Strs(buffer) + items[i..])
    ensures whole == result + Merge(Strs(buffer + [items[i].s]) + items[i + 1..])
  {
    assert items[i..] == [Str(items[i].s)] + items[i + 1..];
    BufferString(buffer, items[i].s, items[i + 1..]);
  }

  /** Flushing the buffer and appending a tag: the loop invariant of `MergeRuns` for what follows. */
  lemma TagStep(whole: seq<Res>, items: seq<Res>, i: nat, result: seq<Res>, buffer: seq<string>)
    requires i < |items| && !items[i].Str?
    requires whole == result + Merge(Strs(buffer) + items[i..])
    ensures whole == result + Merge(Strs(buffer)) + [items[i]] + Merge(items[i + 1..])
  {
    var item, rest := items[i], items[i + 1..];
    var flushed := if buffer == [] then [] else [Str(Join(buffer))];
    assert Merge(Strs(buffer) + items[i..]) == flushed + [item] + Merge(rest) by {
      assert items[i..] == [item] + rest;
      FlushBeforeTag(buffer, item, rest);
    }
    assert Merge(Strs(buffer)) == flushed by {
      FlushAtEnd(buffer);
    }
    assert result + (flushed + [item] + Merge(rest)) == result + flushed + [item] + Merge(rest);
  }

  /** After a flush the buffer is empty and contributes nothing. */
  lemma EmptyBuffer(whole: seq<Res>, result: seq<Res>, rest: seq<Res>)
    requires whole == result + Merge(rest)
    ensures whole == result + Merge(Strs([]) + rest)
  {
    assert Strs([]) + rest == rest;
  }

  /** At the end of the loop, the final flush completes the merge. */
  lemma FinalStep(whole: seq<Res>, items: seq<Res>, result: seq<Res>, buffer: seq<string>)
    requires whole == result + Merge(Strs(buffer) + items[|items|..])
    ensures whole == result + Merge(Strs(buffer))
  {
    assert Strs(buffer) + items[|items|..] == Strs(buffer);
  }

  lemma BufferString(buffer: seq<string>, s: string, rest: seq<Res>)
    ensures Strs(buffer) + ([Str(s)] + rest) == Strs(buffer + [s]) + rest
  {
    assert Strs(buffer + [s]) == Strs(buffer) + [Str(s)];
  }

  lemma FlushBeforeTag(buffer: seq<string>, item: Res, rest: seq<Res>)
    requires !item.Str?
    ensures Merge(Strs(buffer) + ([item] + rest))
         == (if buffer == [] then [] else [Str(Join(buffer))]) + [item] + Merge(rest)
  {
    assert ([item] + rest)[1..] == rest;
    if buffer != [] {
      MergeRun(buffer, [item] + rest);
    } else {
      assert Strs(buffer) + ([item] + rest) == [item] + rest;
    }
  }

  lemma FlushAtEnd(buffer: seq<string>)
    ensures Merge(Strs(buffer)) == if buffer == [] then [] else [Str(Join(buffer))]
  {
    if buffer != [] {
      MergeRun(buffer, []);
      assert Strs(buffer) + [] == Strs(buffer);
    }
  }

  /** The section loop: each item is appended, a string after a `" "` unless the section is still empty. */
  method BuildSection(items: seq<Res>) returns (contents: seq<Res>)
    ensures contents == Spaced(items)
  {
    contents := [];
    var i := 0;
    while i < |items|
      invariant 0 <= i <= |items|
      invariant contents == Spaced(items[..i])
    {
      var item := items[i];
      if item.Str? {
        if contents != [] {
          contents := contents + [Space];
        }
        contents := contents + [item];
      } else {
        contents := contents + [item];
      }
      assert items[..i + 1][..i] == items[..i];
      i := i + 1;
    }
    assert items[..|items|] == items;
  }
}

=== FILE: markup.dfy ===
/**
 * The parsed page as the reducer sees it, and what the reducer builds.
 *
 * A parsed node is either a text node (BeautifulSoup's `NavigableString`) or an
 * element with its tag name, its attributes and its ordered children. A reduction
 * result is a plain string, a freshly built `<a href=...>` leaf, or a freshly built
 * `<section>` whose contents are listed in order, including the single-space
 * strings inserted between items.
 */
module Markup {
  import opened Strings

  datatype Node =
    | Text(content: string)
    | Element(name: string, attrs: map<string, string>, children: seq<Node>)

  datatype Res =
    | Str(s: string)
    | Anchor(href: string, text: string)
    | Section(contents: seq<Res>)

  /**
   * `node.get_text(strip=True)`: every descendant text node in document order,
   * stripped, concatenated with no separator (pieces that strip to "" add nothing).
   */
  function VisibleText(n: Node): string
    decreases n
  {
    match n
    case Text(s) => Strip(s)
    case Element(_, _, cs) => VisibleTextAll(cs)
  }

  function VisibleTextAll(cs: seq<Node>): string
    decreases cs
  {
    if cs == [] then "" else VisibleTextAll(cs[..|cs| - 1]) + VisibleText(cs[|cs| - 1])
  }

  /** The text `get_text(strip=True)` produces never starts or ends with whitespace. */
  lemma {:induction false} VisibleTextStripped(n: Node)
    ensures IsStripped(VisibleText(n))
    decreases n
  {
    match n
    case Text(s) => StripIsStripped(s);
    case Element(_, _, cs) => VisibleTextAllStripped(cs);
  }

  lemma {:induction false} VisibleTextAllStripped(cs: seq<Node>)
    ensures IsStripped(VisibleTextAll(cs))
    decreases cs
  {
    if cs != [] {
      VisibleTextAllStripped(cs[..|cs| - 1]);
      VisibleTextStripped(cs[|cs| - 1]);
      ConcatStripped(VisibleTextAll(cs[..|cs| - 1]), VisibleText(cs[|cs| - 1]));
    }
  }

  /** The tags whose subtrees are decomposed before reduction. */
  predicate IsScriptOrStyle(n: Node)
  {
    n.Element? && (n.name == "script" || n.name == "style")
  }

  /** No `<script>` or `<style>` element anywhere below `n`. */
  predicate ScriptFree(n: Node)
    decreases n
  {
    match n
    case Text(_) => true
    case Element(_, _, cs) => forall i :: 0 <= i < |cs| ==> !IsScriptOrStyle(cs[i]) && ScriptFree(cs[i])
  }

  /** Decomposing every `<script>` and `<style>` subtree below `n`. */
  function Prune(n: Node): Node
    decreases n
  {
    match n
    case Text(_) => n
    case Element(name, attrs, cs) => Element(name, attrs, PruneAll(cs))
  }

  function PruneAll(cs: seq<Node>): seq<Node>
    decreases cs
  {
    if cs == [] then []
    else
      var last := cs[|cs| - 1];
      PruneAll(cs[..|cs| - 1]) + (if IsScriptOrStyle(last) then [] else [Prune(last)])
  }

  /** A single child is dropped when it is a script or style and pruned otherwise. */
  lemma PruneAllOne(c: Node)
    ensures PruneAll([c]) == if IsScriptOrStyle(c) then [] else [Prune(c)]
  {
    assert [c][..0] == [];
  }

  /** The pre-pass treats the children independently and keeps their order. */
  lemma {:induction false} PruneAllAppend(a: seq<Node>, b: seq<Node>)
    ensures PruneAll(a + b) == PruneAll(a) + PruneAll(b)
    decreases b
  {
    if b == [] {
      assert a + b == a;
    } else {
      var init := b[..|b| - 1];
      var last := b[|b| - 1];
      var kept := if IsScriptOrStyle(last) then [] else [Prune(last)];
      assert (a + b)[..|a + b| - 1] == a + init;
      assert PruneAll(a + init) == PruneAll(a) + PruneAll(init) by {
        PruneAllAppend(a, init);
      }
      assert PruneAll(a + b) == PruneAll(a + init) + kept;
      assert PruneAll(b) == PruneAll(init) + kept;
    }
  }

  /** After pruning, no `<script>` or `<style>` element is left. */
  lemma {:induction false} PruneScriptFree(n: Node)
    ensures ScriptFree(Prune(n))
    decreases n
  {
    match n
    case Text(_) =>
    case Element(_, _, cs) => PruneAllScriptFree(cs);
  }

  lemma {:induction false} PruneAllScriptFree(cs: seq<Node>)
    ensures forall i :: 0 <= i < |PruneAll(cs)| ==> !IsScriptOrStyle(PruneAll(cs)[i]) && ScriptFree(PruneAll(cs)[i])
    decreases cs
  {
    if cs != [] {
      PruneAllScriptFree(cs[..|cs| - 1]);
      var last := cs[|cs| - 1];
      if !IsScriptOrStyle(last) {
        PruneScriptFree(last);
      }
    }
  }

  /** Pruning a tree that holds no `<script>` or `<style>` changes nothing. */
  lemma {:induction false} PruneKeepsScriptFree(n: Node)
    requires ScriptFree(n)
    ensures Prune(n) == n
    decreases n
  {
    match n
    case Text(_) =>
    case Element(_, _, cs) => PruneAllKeeps(cs);
  }

  lemma {:induction false} PruneAllKeeps(cs: seq<Node>)
    requires forall i :: 0 <= i < |cs| ==> !IsScriptOrStyle(cs[i]) && ScriptFree(cs[i])
    ensures PruneAll(cs) == cs
    decreases cs
  {
    if cs != [] {
      PruneAllKeeps(cs[..|cs| - 1]);
      PruneKeepsScriptFree(cs[|cs| - 1]);
    }
  }

  /** Pruning is idempotent. */
  lemma PruneIdempotent(n: Node)
    ensures Prune(Prune(n)) == Prune(n)
  {
    PruneScriptFree(n);
    PruneKeepsScriptFree(Prune(n));
  }
}

=== FILE: pagination.dfy ===
/**
 * The URL fallback of `navigate_to_next_page` (tool.py), as a pure function of the
 * current URL, and the clamp on the requested number of result pages.
 *
 * When the URL holds "s=", the first `s=<digits>` offset is read, 30 is added, and
 * every `s=<digits>` occurrence is rewritten to the new value; when no digits follow
 * any "s=", no URL is produced. Without "s=", "s=30" is appended after "&" or "?".
 *
 * The offset scanner is parameterised by where an occurrence may start: anywhere
 * (the regex as written), or only right after "?" or "&" (a query-parameter name).
 */
module Pagination {
  import opened Wrappers
  import opened Strings

  predicate AllDigits(d: string)
  {
    forall i :: 0 <= i < |d| ==> IsDigit(d[i])
  }

  /** Length of the run of digits at the start of `s` (what greedy `\d+` consumes). */
  function DigitRun(s: string): (k: nat)
    ensures k <= |s| && AllDigits(s[..k])
    ensures k == |s| || !IsDigit(s[k])
  {
    if s != [] && IsDigit(s[0]) then
      var k := 1 + DigitRun(s[1..]);
      assert forall i :: 1 <= i < k ==> s[..k][i] == s[1..][..k - 1][i - 1];
      k
    else 0
  }

  /** `int(d)` for a string of decimal digits. */
  function Value(d: string): nat
    requires AllDigits(d)
  {
    if d == [] then 0 else Value(d[..|d| - 1]) * 10 + (d[|d| - 1] as int - '0' as int)
  }

  /** `str(n)`: decimal digits without leading zeros, read back by `Value`. */
  function Decimal(n: nat): (d: string)
    ensures d != [] && AllDigits(d) && Value(d) == n
    ensures |d| == 1 || d[0] != '0'
  {
    var last := ['0' + (n % 10) as char];
    if n < 10 then last
    else
      var d := Decimal(n / 10) + last;
      assert d[..|d| - 1] == Decimal(n / 10);
      d
  }

  /** Where an `s=<digits>` occurrence may begin. */
  datatype Rule = Anywhere | AfterSeparator

  /** Whether an occurrence may begin right after the character `prev`. */
  predicate MayFollow(rule: Rule, prev: char)
  {
    rule == Anywhere || prev == '?' || prev == '&'
  }

  /** Whether an occurrence may begin at the very start of the URL. */
  predicate MayStart(rule: Rule)
  {
    rule == Anywhere
  }

  /** `s=\d+` matches at the start of `u`. */
  predicate OffsetAt(u: string)
  {
    |u| >= 3 && u[0] == 's' && u[1] == '=' && IsDigit(u[2])
  }

  /** The values of the `s=<digits>` occurrences, scanned left to right without overlap. */
  function Offsets(rule: Rule, u: string, here: bool): seq<nat>
    decreases |u|
  {
    if u == [] then []
    else if here && OffsetAt(u) then
      var k := DigitRun(u[2..]);
      assert u[2..][..k] == u[2..2 + k];
      [Value(u[2..2 + k])] + Offsets(rule, u[2 + k..], MayFollow(rule, u[1 + k]))
    else
      Offsets(rule, u[1..], MayFollow(rule, u[0]))
  }

  /** Every `s=<digits>` occurrence rewritten to `s=` followed by `digits`. */
  function Replace(rule: Rule, u: string, here: bool, digits: string): string
    decreases |u|
  {
    if u == [] then []
    else if here && OffsetAt(u) then
      var k := DigitRun(u[2..]);
      "s=" + digits + Replace(rule, u[2 + k..], MayFollow(rule, u[1 + k]), digits)
    else
      [u[0]] + Replace(rule, u[1..], MayFollow(rule, u[0]), digits)
  }

  /** The next-page URL under a given rule for where the offset may stand. */
  function Advance(rule: Rule, url: string): Option<string>
  {
    if Contains(url, "s=") then
      var found := Offsets(rule, url, MayStart(rule));
      if found == [] then None
      else Some(Replace(rule, url, MayStart(rule), Decimal(found[0] + 30)))
    else
      Some(url + (if Contains(url, "?") then "&" else "?") + "s=30")
  }

  /** The next-page URL as the source computes it: `s=<digits>` is matched anywhere. */
  function NextPageUrl(url: string): Option<string>
  {
    Advance(Anywhere, url)
  }

  /** The next-page URL with the offset read and rewritten only as the `s` query parameter. */
  function NextPageUrlParam(url: string): Option<string>
  {
    Advance(AfterSeparator, url)
  }

  function Repeat<T>(v: T, n: nat): (r: seq<T>)
    ensures |r| == n && forall i :: 0 <= i < n ==> r[i] == v
  {
    if n == 0 then [] else [v] + Repeat(v, n - 1)
  }

  // ---------------------------------------------------------------------------
  // Rewriting

  /** Rewriting keeps the first character (an occurrence starts with 's' either way). */
  lemma ReplaceHead(rule: Rule, u: string, here: bool, digits: string)
    ensures Replace(rule, u, here, digits) == [] <==> u == []
    ensures u != [] ==> Replace(rule, u, here, digits)[0] == u[0]
  {
  }

  /** Rewriting creates no occurrence at the start and removes none. */
  lemma ReplaceKeepsOffsetAt(rule: Rule, u: string, here: bool, digits: string)
    requires digits != [] && AllDigits(digits)
    ensures OffsetAt(Replace(rule, u, here, digits)) <==> OffsetAt(u)
  {
    var r := Replace(rule, u, here, digits);
    if u != [] && !(here && OffsetAt(u)) && |u| >= 2 {
      var h1 := MayFollow(rule, u[0]);
      ReplaceHead(rule, u[1..], h1, digits);
      if u[1] == '=' && |u| >= 3 {
        assert !OffsetAt(u[1..]);
        assert u[1..][1..] == u[2..];
        ReplaceHead(rule, u[2..], MayFollow(rule, u[1]), digits);
        assert r[2] == u[2];
      }
    }
  }

  /** A run of digits followed by a non-digit is read as exactly that run. */
  lemma DigitRunConcat(d: string, rest: string)
    requires AllDigits(d)
    requires rest == [] || !IsDigit(rest[0])
    ensures DigitRun(d + rest) == |d|
    ensures (d + rest)[..|d|] == d
  {
    if d != [] {
      assert (d + rest)[1..] == d[1..] + rest;
      DigitRunConcat(d[1..], rest);
    } else {
      assert d + rest == rest;
    }
  }

  /** A rewritten occurrence is read back as the new value, and scanning resumes after it. */
  lemma OffsetsOfRewritten(rule: Rule, digits: string, tail: string)
    requires digits != [] && AllDigits(digits)
    requires tail == [] || !IsDigit(tail[0])
    ensures Offsets(rule, "s=" + digits + tail, true)
         == [Value(digits)] + Offsets(rule, tail, MayFollow(rule, digits[|digits| - 1]))
  {
    var r := "s=" + digits + tail;
    assert r[2..] == digits + tail;
    DigitRunConcat(digits, tail);
    assert r[2..2 + |digits|] == digits;
    assert r[2 + |digits|..] == tail;
    assert r[1 + |digits|] == digits[|digits| - 1];
  }

  /** After rewriting, there are as many occurrences as before, all holding the new value. */
  lemma ReplaceOffsets(rule: Rule, u: string, here: bool, digits: string)
    requires digits != [] && AllDigits(digits)
    ensures Offsets(rule, Replace(rule, u, here, digits), here) == Repeat(Value(digits), |Offsets(rule, u, here)|)
  {
    var r := Replace(rule, u, here, digits);
    ReplaceSplit(rule, u, here, digits, "");
    RunsOffsets(rule, u, here);
    RunsOffsets(rule, r, here);
    var found := Offsets(rule, r, here);
    forall i | 0 <= i < |found| ensures found[i] == Value(digits) {
      assert Runs(rule, r, here)[i] == digits;
    }
  }

  // ---------------------------------------------------------------------------
  // What the rewrite leaves alone

  /** The digit runs of the `s=<digits>` occurrences, left to right; each is read as its offset. */
  function Runs(rule: Rule, u: string, here: bool): seq<string>
    decreases |u|
  {
    if u == [] then []
    else if here && OffsetAt(u) then
      var k := DigitRun(u[2..]);
      [u[2..2 + k]] + Runs(rule, u[2 + k..], MayFollow(rule, u[1 + k]))
    else
      Runs(rule, u[1..], MayFollow(rule, u[0]))
  }

  /** Each run is a non-empty string of digits and is read as the offset at its position. */
  lemma {:induction false} RunsOffsets(rule: Rule, u: string, here: bool)
    ensures var r := Runs(rule, u, here);
      |r| == |Offsets(rule, u, here)|
      && forall i :: 0 <= i < |r| ==> r[i] != [] && AllDigits(r[i]) && Value(r[i]) == Offsets(rule, u, here)[i]
    decreases |u|
  {
    if u == [] {
    } else if here && OffsetAt(u) {
      var k := DigitRun(u[2..]);
      assert u[2..][..k] == u[2..2 + k];
      RunsOffsets(rule, u[2 + k..], MayFollow(rule, u[1 + k]));
    } else {
      RunsOffsets(rule, u[1..], MayFollow(rule, u[0]));
    }
  }

  /**
   * The text around the digit runs: the piece before the first run, then the piece
   * after each run up to the next one (or the end). `piece` is the text of the current
   * piece already read.
   */
  function Gaps(rule: Rule, u: string, here: bool, piece: string): seq<string>
    decreases |u|
  {
    if u == [] then [piece]
    else if here && OffsetAt(u) then
      var k := DigitRun(u[2..]);
      [piece + "s="] + Gaps(rule, u[2 + k..], MayFollow(rule, u[1 + k]), "")
    else
      Gaps(rule, u[1..], MayFollow(rule, u[0]), piece + [u[0]])
  }

  /** The pieces around the runs with the runs put back between them. */
  function Fill(gaps: seq<string>, runs: seq<string>): string
  {
    if gaps == [] then []
    else if runs == [] then gaps[0]
    else gaps[0] + runs[0] + Fill(gaps[1..], runs[1..])
  }

  /** Splitting a URL into its runs and the pieces around them loses nothing. */
  lemma {:induction false} SplitFill(rule: Rule, u: string, here: bool, piece: string)
    ensures Fill(Gaps(rule, u, here, piece), Runs(rule, u, here)) == piece + u
    decreases |u|
  {
    if u == [] {
      assert piece + u == piece;
    } else if here && OffsetAt(u) {
      var k := DigitRun(u[2..]);
      var rest := u[2 + k..];
      var h := MayFollow(rule, u[1 + k]);
      assert Fill(Gaps(rule, rest, h, ""), Runs(rule, rest, h)) == rest by {
        SplitFill(rule, rest, h, "");
        assert "" + rest == rest;
      }
      SplitAtOccurrence(rule, u, piece);
      FillOccurrence(piece, u[2..2 + k], rest, Gaps(rule, rest, h, ""), Runs(rule, rest, h));
    } else {
      var h := MayFollow(rule, u[0]);
      assert Fill(Gaps(rule, u[1..], h, piece + [u[0]]), Runs(rule, u[1..], h)) == (piece + [u[0]]) + u[1..] by {
        SplitFill(rule, u[1..], h, piece + [u[0]]);
      }
      assert (piece + [u[0]]) + u[1..] == piece + u;
    }
  }

  /** At an occurrence, the first run and the piece before it are split off. */
  lemma SplitAtOccurrence(rule: Rule, u: string, piece: string)
    requires OffsetAt(u)
    ensures var k := DigitRun(u[2..]);
      var h := MayFollow(rule, u[1 + k]);
      && Gaps(rule, u, true, piece) == [piece + "s="] + Gaps(rule, u[2 + k..], h, "")
      && Runs(rule, u, true) == [u[2..2 + k]] + Runs(rule, u[2 + k..], h)
      && u == "s=" + u[2..2 + k] + u[2 + k..]
  {
    var k := DigitRun(u[2..]);
    assert u[..2] == "s=";
    assert u[..2 + k] == u[..2] + u[2..2 + k];
    assert u == u[..2 + k] + u[2 + k..];
  }

  /** Putting a run back after a piece that ends in "s=" rebuilds the occurrence. */
  lemma FillOccurrence(piece: string, run: string, rest: string, gaps: seq<string>, runs: seq<string>)
    requires Fill(gaps, runs) == rest
    ensures Fill([piece + "s="] + gaps, [run] + runs) == piece + ("s=" + run + rest)
  {
    var g := [piece + "s="] + gaps;
    var r := [run] + runs;
    assert g[1..] == gaps && r[1..] == runs;
    assert Fill(g, r) == (piece + "s=") + run + rest;
  }

  /** A rewritten occurrence is split into the new digits and the pieces of the text after it. */
  lemma SplitOfRewritten(rule: Rule, digits: string, tail: string, piece: string)
    requires digits != [] && AllDigits(digits)
    requires tail == [] || !IsDigit(tail[0])
    ensures Runs(rule, "s=" + digits + tail, true)
         == [digits] + Runs(rule, tail, MayFollow(rule, digits[|digits| - 1]))
    ensures Gaps(rule, "s=" + digits + tail, true, piece)
         == [piece + "s="] + Gaps(rule, tail, MayFollow(rule, digits[|digits| - 1]), "")
  {
    var r := "s=" + digits + tail;
    assert r[2..] == digits + tail;
    DigitRunConcat(digits, tail);
    assert r[2..2 + |digits|] == digits;
    assert r[2 + |digits|..] == tail;
    assert r[1 + |digits|] == digits[|digits| - 1];
  }

  /**
   * The rewrite keeps every piece of the URL around the digit runs, and every run
   * becomes the new digits.
   */
  lemma {:induction false} ReplaceSplit(rule: Rule, u: string, here: bool, digits: string, piece: string)
    requires digits != [] && AllDigits(digits)
    ensures Gaps(rule, Replace(rule, u, here, digits), here, piece) == Gaps(rule, u, here, piece)
    ensures Runs(rule, Replace(rule, u, here, digits), here) == Repeat(digits, |Runs(rule, u, here)|)
    decreases |u|
  {
    if u == [] {
    } else if here && OffsetAt(u) {
      var k := DigitRun(u[2..]);
      var rest := u[2 + k..];
      var h := MayFollow(rule, u[1 + k]);
      assert h == MayFollow(rule, digits[|digits| - 1]) by {
        assert u[1 + k] == u[2..][..k][k - 1];
      }
      var tail := Replace(rule, rest, h, digits);
      assert tail == [] || !IsDigit(tail[0]) by {
        assert u[2..][k..] == rest;
        ReplaceHead(rule, rest, h, digits);
      }
      assert Replace(rule, u, here, digits) == "s=" + digits + tail;
      SplitOfRewritten(rule, digits, tail, piece);
      ReplaceSplit(rule, rest, h, digits, "");
    } else {
      ReplaceKeepsOffsetAt(rule, u, here, digits);
      var h := MayFollow(rule, u[0]);
      ReplaceSplit(rule, u[1..], h, digits, piece + [u[0]]);
      var r := Replace(rule, u, here, digits);
      assert r[1..] == Replace(rule, u[1..], h, digits);
      assert r[0] == u[0];
    }
  }

  /** The rewrite is the URL with every digit run replaced by the new digits and nothing else changed. */
  lemma ReplaceFill(rule: Rule, u: string, here: bool, digits: string)
    requires digits != [] && AllDigits(digits)
    ensures Replace(rule, u, here, digits) == Fill(Gaps(rule, u, here, ""), Repeat(digits, |Offsets(rule, u, here)|))
  {
    var r := Replace(rule, u, here, digits);
    ReplaceSplit(rule, u, here, digits, "");
    RunsOffsets(rule, u, here);
    SplitFill(rule, r, here, "");
    assert "" + r == r;
  }

  /** Without "s=" there is no occurrence at all. */
  lemma {:induction false} NoMarkerNoOffsets(rule: Rule, u: string, here: bool)
    requires !Contains(u, "s=")
    ensures Offsets(rule, u, here) == []
    decreases |u|
  {
    if u != [] {
      NoMarkerNoOffsets(rule, u[1..], MayFollow(rule, u[0]));
    }
  }

  /** Text without "s=" in front of a tail that does not start with '=' adds no occurrence. */
  lemma {:induction false} OffsetsAfterPlainPrefix(rule: Rule, u: string, tail: string, here: bool)
    requires !Contains(u, "s=")
    requires tail != [] && tail[0] != '='
    ensures Offsets(rule, u + tail, here) == Offsets(rule, tail, if u == [] then here else MayFollow(rule, u[|u| - 1]))
    decreases |u|
  {
    if u == [] {
      assert u + tail == tail;
    } else {
      var s := u + tail;
      assert !OffsetAt(s) by {
        if |u| >= 2 {
          assert s[..2] == u[..2];
        } else {
          assert s[1] == tail[0];
        }
      }
      assert s[1..] == u[1..] + tail;
      OffsetsAfterPlainPrefix(rule, u[1..], tail, MayFollow(rule, u[0]));
    }
  }

  /** "s=30" after either separator holds the one occurrence 30, wherever it stands. */
  lemma SeparatedThirty(rule: Rule, sep: char, here: bool)
    requires sep == '&' || sep == '?'
    ensures Offsets(rule, [sep] + "s=30", here) == [30]
  {
    var thirty := "30";
    assert AllDigits(thirty) && Value(thirty) == 30 by {
      assert thirty[..1] == "3";
      assert "3"[..0] == [];
    }
    assert Offsets(rule, "s=30", true) == [30] by {
      assert "s=30" == "s=" + thirty + [];
      OffsetsOfRewritten(rule, thirty, []);
    }
    assert ([sep] + "s=30")[1..] == "s=30";
  }

  /** The appended parameter "s=30", after either separator, is the one occurrence. */
  lemma AppendedOffset(rule: Rule, url: string, sep: char)
    requires !Contains(url, "s=")
    requires sep == '&' || sep == '?'
    ensures Offsets(rule, url + [sep] + "s=30", MayStart(rule)) == [30]
  {
    var tail := [sep] + "s=30";
    assert url + [sep] + "s=30" == url + tail;
    OffsetsAfterPlainPrefix(rule, url, tail, MayStart(rule));
    SeparatedThirty(rule, sep, if url == [] then MayStart(rule) else MayFollow(rule, url[|url| - 1]));
  }

  /** Without "s=", the separator and "s=30" are appended, and 30 is then the only offset. */
  lemma AdvanceAppends(rule: Rule, url: string)
    requires !Contains(url, "s=")
    ensures Advance(rule, url) == Some(url + (if Contains(url, "?") then "&" else "?") + "s=30")
    ensures Offsets(rule, Advance(rule, url).value, MayStart(rule)) == [30]
  {
    var sep := if Contains(url, "?") then '&' else '?';
    assert (if Contains(url, "?") then "&" else "?") == [sep];
    AppendedOffset(rule, url, sep);
  }

  /** With an offset, every digit run is rewritten to the first offset plus 30 and nothing else changes. */
  lemma AdvanceRewrites(rule: Rule, url: string)
    requires Contains(url, "s=") && Offsets(rule, url, MayStart(rule)) != []
    ensures var found := Offsets(rule, url, MayStart(rule));
      var next := Advance(rule, url);
      && next == Some(Fill(Gaps(rule, url, MayStart(rule), ""), Repeat(Decimal(found[0] + 30), |found|)))
      && Gaps(rule, next.value, MayStart(rule), "") == Gaps(rule, url, MayStart(rule), "")
      && Offsets(rule, next.value, MayStart(rule)) == Repeat(found[0] + 30, |found|)
  {
    var here := MayStart(rule);
    var found := Offsets(rule, url, here);
    var digits := Decimal(found[0] + 30);
    var next := Replace(rule, url, here, digits);
    assert Advance(rule, url) == Some(next);
    assert Offsets(rule, next, here) == Repeat(Value(digits), |found|) by {
      ReplaceOffsets(rule, url, here, digits);
    }
    assert Gaps(rule, next, here, "") == Gaps(rule, url, here, "") by {
      ReplaceSplit(rule, url, here, digits, "");
    }
    assert next == Fill(Gaps(rule, url, here, ""), Repeat(digits, |found|)) by {
      ReplaceFill(rule, url, here, digits);
    }
  }

  /**
   * The next-page URL: "s=30" is appended when the URL holds no "s="; no URL is produced
   * when no digits follow any "s="; otherwise every occurrence is rewritten, and all of
   * them then hold the first occurrence's value plus 30, while every piece of the URL
   * around the rewritten digit runs stays as it was.
   */
  lemma AdvanceSpec(rule: Rule, url: string)
    ensures var found := Offsets(rule, url, MayStart(rule));
      var next := Advance(rule, url);
      && (!Contains(url, "s=") ==>
            next == Some(url + (if Contains(url, "?") then "&" else "?") + "s=30")
            && Offsets(rule, next.value, MayStart(rule)) == [30])
      && (Contains(url, "s=") ==> (next == None <==> found == []))
      && (Contains(url, "s=") && found != [] ==>
            next == Some(Fill(Gaps(rule, url, MayStart(rule), ""), Repeat(Decimal(found[0] + 30), |found|)))
            && Gaps(rule, next.value, MayStart(rule), "") == Gaps(rule, url, MayStart(rule), "")
            && Offsets(rule, next.value, MayStart(rule)) == Repeat(found[0] + 30, |found|))
  {
    if !Contains(url, "s=") {
      AdvanceAppends(rule, url);
    } else if Offsets(rule, url, MayStart(rule)) != [] {
      AdvanceRewrites(rule, url);
    }
  }

  // ---------------------------------------------------------------------------
  // The requested number of pages

  function Distance(a: int, b: int): nat
  {
    if a <= b then b - a else a - b
  }

  /** `max_pages` clamped to 1..10: the page count in that range nearest to the request. */
  function ClampPages(n: int): (r: int)
    ensures 1 <= r <= 10
    ensures forall m :: 1 <= m <= 10 ==> Distance(r, n) <= Distance(m, n)
  {
    if n < 1 then 1 else if n > 10 then 10 else n
  }
}

=== FILE: pagination_examples.dfy ===
/**
 * The page-offset rewrite on a URL whose other parameters end in "s": the regex as
 * written reads and rewrites the "ps" parameter as well, while the parameter-bound
 * rewrite advances only `s`.
 */
module PaginationExamples {
  import opened Wrappers
  import opened Strings
  import opened Pagination

  lemma OffsetsSkip(rule: Rule, c: char, rest: string, here: bool)
    requires c != 's' || !here
    ensures Offsets(rule, [c] + rest, here) == Offsets(rule, rest, MayFollow(rule, c))
  {
    assert ([c] + rest)[1..] == rest;
  }

  lemma ReplaceSkip(rule: Rule, c: char, rest: string, here: bool, digits: string)
    requires c != 's' || !here
    ensures Replace(rule, [c] + rest, here, digits) == [c] + Replace(rule, rest, MayFollow(rule, c), digits)
  {
    assert ([c] + rest)[1..] == rest;
  }

  lemma ReplaceHere(rule: Rule, previous: string, tail: string, digits: string)
    requires previous != [] && AllDigits(previous)
    requires tail == [] || !IsDigit(tail[0])
    ensures Replace(rule, "s=" + previous + tail, true, digits)
         == "s=" + digits + Replace(rule, tail, MayFollow(rule, previous[|previous| - 1]), digits)
  {
    var u := "s=" + previous + tail;
    assert u[2..] == previous + tail;
    DigitRunConcat(previous, tail);
    assert u[2 + |previous|..] == tail;
    assert u[1 + |previous|] == previous[|previous| - 1];
  }

  lemma Two()
    ensures AllDigits("2") && Value("2") == 2
  {
    assert "2"[..0] == [];
  }

  lemma Decimals()
    ensures Decimal(32) == "32" && Decimal(60) == "60"
  {
    assert Decimal(3) == "3";
    assert Decimal(6) == "6";
  }

  // ---------------------------------------------------------------------------
  // The prefix "?ps=2", under each rule

  lemma OffsetsWrittenSteps(rest: string)
    requires rest == [] || !IsDigit(rest[0])
    ensures Offsets(Anywhere, ['?'] + (['p'] + ("s=2" + rest)), true) == [2] + Offsets(Anywhere, rest, true)
  {
    var mid := "s=2" + rest;
    assert Offsets(Anywhere, mid, true) == [2] + Offsets(Anywhere, rest, true) by {
      var two := "2";
      Two();
      assert mid == "s=" + two + rest;
      OffsetsOfRewritten(Anywhere, two, rest);
    }
    OffsetsSkip(Anywhere, 'p', mid, true);
    OffsetsSkip(Anywhere, '?', ['p'] + mid, true);
  }

  /** As written, "ps=2" after the "?" is read as the offset 2. */
  lemma OffsetsWrittenHead(rest: string)
    requires rest == [] || !IsDigit(rest[0])
    ensures Offsets(Anywhere, "?ps=2" + rest, true) == [2] + Offsets(Anywhere, rest, true)
  {
    OffsetsWrittenSteps(rest);
    assert "?ps=2" + rest == ['?'] + (['p'] + ("s=2" + rest));
  }

  lemma OffsetsParameterSteps(rest: string)
    ensures Offsets(AfterSeparator, ['?'] + (['p'] + (['s'] + (['='] + (['2'] + rest)))), false)
         == Offsets(AfterSeparator, rest, false)
  {
    var r2 := ['2'] + rest;
    var r3 := ['='] + r2;
    var r4 := ['s'] + r3;
    var r5 := ['p'] + r4;
    OffsetsSkip(AfterSeparator, '2', rest, false);
    OffsetsSkip(AfterSeparator, '=', r2, false);
    OffsetsSkip(AfterSeparator, 's', r3, false);
    OffsetsSkip(AfterSeparator, 'p', r4, true);
    OffsetsSkip(AfterSeparator, '?', r5, false);
  }

  /** Under the parameter rule, "ps=2" after the "?" holds no offset. */
  lemma OffsetsParameterHead(rest: string)
    ensures Offsets(AfterSeparator, "?ps=2" + rest, false) == Offsets(AfterSeparator, rest, false)
  {
    OffsetsParameterSteps(rest);
    assert "?ps=2" + rest == ['?'] + (['p'] + (['s'] + (['='] + (['2'] + rest))));
  }

  lemma ReplaceWrittenSteps(rest: string, d: string)
    requires rest == [] || !IsDigit(rest[0])
    ensures Replace(Anywhere, ['?'] + (['p'] + ("s=2" + rest)), true, d)
         == ['?'] + (['p'] + ("s=" + d + Replace(Anywhere, rest, true, d)))
  {
    var mid := "s=2" + rest;
    assert Replace(Anywhere, mid, true, d) == "s=" + d + Replace(Anywhere, rest, true, d) by {
      var two := "2";
      Two();
      assert mid == "s=" + two + rest;
      ReplaceHere(Anywhere, two, rest, d);
    }
    ReplaceSkip(Anywhere, 'p', mid, true, d);
    ReplaceSkip(Anywhere, '?', ['p'] + mid, true, d);
  }

  /** As written, "ps=2" after the "?" is rewritten like an offset. */
  lemma ReplaceWrittenHead(rest: string, d: string)
    requires rest == [] || !IsDigit(rest[0])
    ensures Replace(Anywhere, "?ps=2" + rest, true, d)
         == ['?'] + (['p'] + ("s=" + d + Replace(Anywhere, rest, true, d)))
  {
    ReplaceWrittenSteps(rest, d);
    assert "?ps=2" + rest == ['?'] + (['p'] + ("s=2" + rest));
  }

  /** As written, the rewrite of "?ps=2" followed by text whose rewrite is known. */
  lemma ReplaceWrittenBefore(rest: string, d: string, x: string)
    requires rest == [] || !IsDigit(rest[0])
    requires Replace(Anywhere, rest, true, d) == x
    ensures Replace(Anywhere, "?ps=2" + rest, true, d) == "?p" + "s=" + d + x
  {
    ReplaceWrittenHead(rest, d);
    var t := "s=" + d + x;
    assert ['?'] + (['p'] + t) == "?p" + t;
    assert "?p" + t == "?p" + "s=" + d + x;
  }

  lemma ReplaceParameterSteps(rest: string, d: string)
    ensures Replace(AfterSeparator, ['?'] + (['p'] + (['s'] + (['='] + (['2'] + rest)))), false, d)
         == ['?'] + (['p'] + (['s'] + (['='] + (['2'] + Replace(AfterSeparator, rest, false, d)))))
  {
    var r2 := ['2'] + rest;
    var r3 := ['='] + r2;
    var r4 := ['s'] + r3;
    var r5 := ['p'] + r4;
    ReplaceSkip(AfterSeparator, '2', rest, false, d);
    ReplaceSkip(AfterSeparator, '=', r2, false, d);
    ReplaceSkip(AfterSeparator, 's', r3, false, d);
    ReplaceSkip(AfterSeparator, 'p', r4, true, d);
    ReplaceSkip(AfterSeparator, '?', r5, false, d);
  }

  /** Under the parameter rule, "ps=2" after the "?" is left as it is. */
  lemma ReplaceParameterHead(rest: string, d: string)
    ensures Replace(AfterSeparator, "?ps=2" + rest, false, d) == "?ps=2" + Replace(AfterSeparator, rest, false, d)
  {
    var x := Replace(AfterSeparator, rest, false, d);
    ReplaceParameterSteps(rest, d);
    assert "?ps=2" + rest == ['?'] + (['p'] + (['s'] + (['='] + (['2'] + rest))));
    assert ['?'] + (['p'] + (['s'] + (['='] + (['2'] + x)))) == "?ps=2" + x;
  }

  // ---------------------------------------------------------------------------
  // The parameter "&s=30", under either rule

  lemma ReplaceThirty(rule: Rule, here: bool, d: string)
    ensures Replace(rule, "&s=30", here, d) == "&" + "s=" + d
  {
    var thirty := "30";
    var last := "s=" + thirty;
    assert Replace(rule, last, true, d) == "s=" + d by {
      assert AllDigits(thirty);
      assert last == "s=" + thirty + [];
      ReplaceHere(rule, thirty, [], d);
    }
    assert Replace(rule, "&s=30", here, d) == ['&'] + Replace(rule, last, true, d) by {
      assert "&s=30" == ['&'] + last;
      ReplaceSkip(rule, '&', last, here, d);
    }
  }

  // ---------------------------------------------------------------------------
  // The URL "?ps=2&s=30"

  /** As written: both "ps=2" and "s=30" are read as offsets, the first of them is 2. */
  lemma OffsetsAsWritten(u: string)
    requires u == "?ps=2&s=30"
    ensures Offsets(Anywhere, u, true) == [2, 30]
  {
    var rest := "&s=30";
    assert u == "?ps=2" + rest;
    OffsetsWrittenHead(rest);
    assert ['&'] + "s=30" == rest;
    SeparatedThirty(Anywhere, '&', true);
  }

  /** With the parameter boundary, only "s=30" is an offset. */
  lemma OffsetsAsParameter(u: string)
    requires u == "?ps=2&s=30"
    ensures Offsets(AfterSeparator, u, false) == [30]
  {
    var rest := "&s=30";
    assert u == "?ps=2" + rest;
    OffsetsParameterHead(rest);
    assert ['&'] + "s=30" == rest;
    SeparatedThirty(AfterSeparator, '&', false);
  }

  lemma HasMarker(u: string)
    requires u == "?ps=2&s=30"
    ensures Contains(u, "s=")
  {
    assert u[1..][1..] == u[2..];
    assert u[2..][..2] == "s=";
  }

  lemma ReplaceAsWritten(u: string, d: string)
    requires u == "?ps=2&s=30"
    ensures Replace(Anywhere, u, true, d) == "?p" + "s=" + d + "&" + "s=" + d
  {
    var rest := "&s=30";
    assert Replace(Anywhere, rest, true, d) == "&" + "s=" + d by {
      ReplaceThirty(Anywhere, true, d);
    }
    assert u == "?ps=2" + rest;
    ReplaceWrittenBefore(rest, d, "&" + "s=" + d);
  }

  lemma ReplaceAsParameter(u: string, d: string)
    requires u == "?ps=2&s=30"
    ensures Replace(AfterSeparator, u, false, d) == "?ps=2&" + "s=" + d
  {
    var rest := "&s=30";
    assert u == "?ps=2" + rest;
    ReplaceThirty(AfterSeparator, false, d);
    ReplaceParameterHead(rest, d);
  }

  /** As written, the page offset 30 becomes 32, and the unrelated "ps" parameter is overwritten too. */
  lemma NextPageUrlOverwritesOtherParameter(u: string)
    requires u == "?ps=2&s=30"
    ensures NextPageUrl(u) == Some("?ps=32&s=32")
  {
    HasMarker(u);
    OffsetsAsWritten(u);
    Decimals();
    var d := Decimal(32);
    ReplaceAsWritten(u, d);
    assert "?p" + "s=" + d + "&" + "s=" + d == "?ps=32&s=32";
  }

  /** Bound to the parameter, the page offset 30 becomes 60 and nothing else changes. */
  lemma NextPageUrlParamAdvancesOffset(u: string)
    requires u == "?ps=2&s=30"
    ensures NextPageUrlParam(u) == Some("?ps=2&s=60")
  {
    HasMarker(u);
    OffsetsAsParameter(u);
    Decimals();
    var d := Decimal(60);
    ReplaceAsParameter(u, d);
    assert "?ps=2&" + "s=" + d == "?ps=2&s=60";
  }
}

=== FILE: reducer.dfy ===
/**
 * The tree reducer `clean_tag` (tool.py), as a specification.
 *
 * `Clean` maps a node to nothing (`None`), a non-empty stripped string, a new
 * `<a>` leaf, or a new `<section>`. Element children are reduced in order, falsy
 * results dropped, maximal runs of adjacent strings joined with single spaces
 * (`Merge`), and the survivors wrapped (`Wrap`): a lone string is returned bare,
 * anything else becomes a section whose contents get one `" "` before every
 * string that is not the section's first child (`Spaced`).
 */
module Reducer {
  import opened Wrappers
  import opened Strings
  import opened Markup

  /** `tag.get('href', '')`. */
  function Href(attrs: map<string, string>): string
  {
    if "href" in attrs then attrs["href"] else ""
  }

  /** An `<a>` is kept as a link when its href starts with "mailto:" or "http". */
  predicate KeepsLink(href: string)
  {
    StartsWith(href, "mailto:") || StartsWith(href, "http")
  }

  /** Python truthiness of a reduction: `None` and `""` are falsy, any tag is truthy. */
  predicate Truthy(r: Option<Res>)
  {
    r.Some? && r.value != Str("")
  }

  function Clean(n: Node): Option<Res>
    decreases n
  {
    match n
    case Text(s) =>
      var t := Strip(s);
      if t != "" then Some(Str(t)) else None
    case Element(name, attrs, cs) =>
      if name == "a" then
        var href := Href(attrs);
        var text := VisibleText(n);
        if KeepsLink(href) then Some(Anchor(href, text))
        else if text != "" then Some(Str(text))
        else None
      else
        Wrap(Merge(Survivors(cs)))
  }

  /** The truthy reductions of `cs`, in source order. */
  function Survivors(cs: seq<Node>): seq<Res>
    decreases cs
  {
    if cs == [] then []
    else
      Survivors(cs[..|cs| - 1]) + Kept(Clean(cs[|cs| - 1]))
  }

  /** The reduction the child loop appends: the value when it is truthy, else nothing. */
  function Kept(r: Option<Res>): seq<Res>
  {
    if Truthy(r) then [r.value] else []
  }

  /**
   * Reference definition of the merge pass: a string followed by a (merged) string
   * run is joined to it with one space; every other item passes through.
   */
  function Merge(items: seq<Res>): seq<Res>
  {
    if items == [] then []
    else
      var rest := Merge(items[1..]);
      if items[0].Str? && rest != [] && rest[0].Str? then
        [Str(items[0].s + " " + rest[0].s)] + rest[1..]
      else
        [items[0]] + rest
  }

  /** The section contents built from `items`: a `" "` before each string that is not the first child. */
  function Spaced(items: seq<Res>): seq<Res>
  {
    if items == [] then []
    else
      var built := Spaced(items[..|items| - 1]);
      var item := items[|items| - 1];
      built + (if item.Str? && built != [] then [Space, item] else [item])
  }

  /** Result shape: nothing, a bare lone string, or a section of everything else. */
  function Wrap(merged: seq<Res>): Option<Res>
  {
    if merged == [] then None
    else if |merged| == 1 && merged[0].Str? then Some(merged[0])
    else Some(Section(Spaced(merged)))
  }

  /** The separator string the section builder inserts. */
  const Space: Res := Str(" ")

  /** The strings as a list of string items. */
  function Strs(parts: seq<string>): (r: seq<Res>)
    ensures |r| == |parts|
    ensures forall i :: 0 <= i < |parts| ==> r[i] == Str(parts[i])
  {
    if parts == [] then [] else [Str(parts[0])] + Strs(parts[1..])
  }

  /** The non-string items, in order. */
  function NonStrs(items: seq<Res>): seq<Res>
  {
    if items == [] then []
    else (if items[0].Str? then [] else [items[0]]) + NonStrs(items[1..])
  }

  /** Section contents with the inserted separators taken out. */
  function Unspace(contents: seq<Res>): seq<Res>
  {
    if contents == [] then []
    else (if contents[0] == Space then [] else [contents[0]]) + Unspace(contents[1..])
  }

  predicate NoAdjacentStrs(items: seq<Res>)
  {
    forall i :: 0 <= i < |items| - 1 ==> !(items[i].Str? && items[i + 1].Str?)
  }

  /**
   * Section contents where every separator sits between two children and is followed
   * by a string, and every string that is not the first child follows a separator.
   */
  predicate ProperlySpaced(c: seq<Res>)
  {
    forall k {:trigger c[k]} :: 0 <= k < |c| ==>
      (c[k] == Space ==> 0 < k < |c| - 1 && c[k + 1].Str? && c[k + 1] != Space) &&
      (c[k].Str? && c[k] != Space && k > 0 ==> c[k - 1] == Space)
  }

  /**
   * What every reduction satisfies: strings are non-empty and stripped, anchors keep
   * a link href and stripped text, and a section is properly spaced around a
   * non-empty item list with no two adjacent strings and no lone string, whose
   * items are themselves well formed.
   */
  predicate WellFormed(r: Res)
    decreases r
  {
    match r
    case Str(s) => IsWord(s)
    case Anchor(href, text) => KeepsLink(href) && IsStripped(text)
    case Section(c) =>
      var items := Unspace(c);
      ProperlySpaced(c) && items != [] && !(|items| == 1 && items[0].Str?) && NoAdjacentStrs(items)
      && forall k :: 0 <= k < |c| && c[k] != Space ==> WellFormed(c[k])
  }

  predicate AllWellFormed(items: seq<Res>)
  {
    forall i :: 0 <= i < |items| ==> WellFormed(items[i])
  }

  // ---------------------------------------------------------------------------
  // The merge pass

  /** The merge keeps the list empty exactly when it was, and keeps the kind of its head. */
  lemma {:induction false} MergeHead(items: seq<Res>)
    ensures |Merge(items)| <= |items|
    ensures Merge(items) == [] <==> items == []
    ensures items != [] ==> Merge(items)[0].Str? == items[0].Str?
  {
    if items != [] {
      MergeHead(items[1..]);
    }
  }

  /** No two adjacent strings survive the merge. */
  lemma {:induction false} MergeNoAdjacentStrs(items: seq<Res>)
    ensures NoAdjacentStrs(Merge(items))
  {
    if items != [] {
      MergeNoAdjacentStrs(items[1..]);
      MergeHead(items[1..]);
      var rest := Merge(items[1..]);
      var m := Merge(items);
      if items[0].Str? && rest != [] && rest[0].Str? {
        assert m[1..] == rest[1..];
        forall i | 0 <= i < |m| - 1 ensures !(m[i].Str? && m[i + 1].Str?) {
          if i > 0 {
            assert m[i] == rest[i] && m[i + 1] == rest[i + 1];
          }
        }
      } else {
        assert m[1..] == rest;
        forall i | 0 <= i < |m| - 1 ensures !(m[i].Str? && m[i + 1].Str?) {
          if i > 0 {
            assert m[i] == rest[i - 1] && m[i + 1] == rest[i];
          }
        }
      }
    }
  }

  /** Anchors and sections keep their order and count through the merge. */
  lemma {:induction false} MergeKeepsNonStrs(items: seq<Res>)
    ensures NonStrs(Merge(items)) == NonStrs(items)
  {
    if items != [] {
      MergeKeepsNonStrs(items[1..]);
      var rest := Merge(items[1..]);
      if items[0].Str? && rest != [] && rest[0].Str? {
        assert NonStrs(rest) == NonStrs(rest[1..]);
        assert NonStrs(Merge(items)) == NonStrs(rest[1..]);
      } else {
        assert NonStrs(Merge(items)) == NonStrs([items[0]] + rest);
        assert ([items[0]] + rest)[1..] == rest;
      }
    }
  }

  /**
   * A maximal run of strings becomes exactly one string, the run joined with single
   * spaces, and whatever follows the run is merged on its own.
   */
  lemma {:induction false} MergeRun(run: seq<string>, rest: seq<Res>)
    requires run != []
    requires rest == [] || !rest[0].Str?
    ensures Merge(Strs(run) + rest) == [Str(Join(run))] + Merge(rest)
  {
    var items := Strs(run) + rest;
    assert items[0] == Str(run[0]);
    assert items[1..] == Strs(run[1..]) + rest;
    if |run| == 1 {
      assert items[1..] == rest;
      MergeHead(rest);
    } else {
      var tail := Merge(items[1..]);
      assert tail == [Str(Join(run[1..]))] + Merge(rest) by {
        MergeRun(run[1..], rest);
      }
      assert Join(run) == run[0] + " " + Join(run[1..]);
      assert Merge(items) == [Str(run[0] + " " + tail[0].s)] + tail[1..];
    }
  }

  /** A list with no adjacent strings is left as it is by the merge. */
  lemma {:induction false} MergeFixesNoAdjacent(items: seq<Res>)
    requires NoAdjacentStrs(items)
    ensures Merge(items) == items
  {
    if items != [] {
      MergeFixesNoAdjacent(items[1..]);
      MergeHead(items[1..]);
      assert items == [items[0]] + items[1..];
    }
  }

  /** Merging twice is merging once. */
  lemma MergeIdempotent(items: seq<Res>)
    ensures Merge(Merge(items)) == Merge(items)
  {
    MergeNoAdjacentStrs(items);
    MergeFixesNoAdjacent(Merge(items));
  }

  /** Merging well-formed items gives well-formed items. */
  lemma {:induction false} MergeWellFormed(items: seq<Res>)
    requires AllWellFormed(items)
    ensures AllWellFormed(Merge(items))
  {
    if items != [] {
      MergeWellFormed(items[1..]);
      var rest := Merge(items[1..]);
      if items[0].Str? && rest != [] && rest[0].Str? {
        JoinTwoWords(items[0].s, rest[0].s);
        var m := Merge(items);
        forall i | 0 <= i < |m| ensures WellFormed(m[i]) {
          if i > 0 {
            assert m[i] == rest[i];
          }
        }
      } else {
        var m := Merge(items);
        forall i | 0 <= i < |m| ensures WellFormed(m[i]) {
          if i > 0 {
            assert m[i] == rest[i - 1];
          }
        }
      }
    }
  }

  // ---------------------------------------------------------------------------
  // Section contents

  /** Section contents are empty exactly when there are no items. */
  lemma {:induction false} SpacedEmpty(items: seq<Res>)
    ensures Spaced(items) == [] <==> items == []
  {
    if items != [] {
      SpacedEmpty(items[..|items| - 1]);
    }
  }

  /** Taking the separators back out of a section gives its items. */
  lemma {:induction false} SpacedUnspace(items: seq<Res>)
    requires forall i :: 0 <= i < |items| ==> items[i] != Space
    ensures Unspace(Spaced(items)) == items
  {
    if items != [] {
      var init := items[..|items| - 1];
      var item := items[|items| - 1];
      var built := Spaced(init);
      assert Unspace(built) == init by {
        SpacedUnspace(init);
      }
      var tail := if item.Str? && built != [] then [Space, item] else [item];
      assert Spaced(items) == built + tail by {
        assert items == init + [item];
        SpacedSnoc(init, item);
      }
      assert Unspace(tail) == [item] by {
        UnspaceTail(item, tail);
      }
      assert Unspace(built + tail) == init + [item] by {
        UnspaceAppend(built, tail);
      }
      assert init + [item] == items;
    }
  }

  /** One more item is appended to the spaced items, after a separator when it is a string that has a predecessor. */
  lemma SpacedSnoc(items: seq<Res>, x: Res)
    ensures Spaced(items + [x]) == Spaced(items) + (if x.Str? && Spaced(items) != [] then [Space, x] else [x])
  {
    assert (items + [x])[..|items|] == items;
  }

  lemma UnspaceTail(item: Res, tail: seq<Res>)
    requires item != Space
    requires tail == [item] || tail == [Space, item]
    ensures Unspace(tail) == [item]
  {
    assert Unspace([item]) == [item] + Unspace([]);
    if tail != [item] {
      assert tail[1..] == [item];
    }
  }

  lemma {:induction false} UnspaceAppend(a: seq<Res>, b: seq<Res>)
    ensures Unspace(a + b) == Unspace(a) + Unspace(b)
  {
    if a != [] {
      UnspaceAppend(a[1..], b);
      assert (a + b)[1..] == a[1..] + b;
    } else {
      assert a + b == b;
    }
  }

  /** Section contents place exactly one separator before each string that is not the first child. */
  lemma {:induction false} SpacedProperly(items: seq<Res>)
    requires forall i :: 0 <= i < |items| ==> items[i] != Space
    ensures ProperlySpaced(Spaced(items))
  {
    if items != [] {
      var init := items[..|items| - 1];
      var item := items[|items| - 1];
      assert ProperlySpaced(Spaced(init)) by {
        SpacedProperly(init);
      }
      AppendProperly(Spaced(init), item);
    }
  }

  /** Appending one item the way the section builder does keeps the contents properly spaced. */
  lemma AppendProperly(built: seq<Res>, item: Res)
    requires ProperlySpaced(built) && item != Space
    ensures ProperlySpaced(built + (if item.Str? && built != [] then [Space, item] else [item]))
  {
    if item.Str? && built != [] {
      AppendSeparated(built, item);
    } else {
      AppendAlone(built, item);
    }
  }

  /** A string after existing contents gets a separator in front of it. */
  lemma AppendSeparated(built: seq<Res>, item: Res)
    requires ProperlySpaced(built) && item != Space && item.Str? && built != []
    ensures ProperlySpaced(built + [Space, item])
  {
    var c := built + [Space, item];
    var n := |built|;
    forall k | 0 <= k < |c|
      ensures (c[k] == Space ==> 0 < k < |c| - 1 && c[k + 1].Str? && c[k + 1] != Space) &&
              (c[k].Str? && c[k] != Space && k > 0 ==> c[k - 1] == Space)
    {
      if k < n - 1 {
        assert c[k] == built[k] && c[k + 1] == built[k + 1];
        if k > 0 {
          assert c[k - 1] == built[k - 1];
        }
      } else if k == n - 1 {
        assert c[k] == built[k] && c[k + 1] == Space;
        if k > 0 {
          assert c[k - 1] == built[k - 1];
        }
      } else if k == n {
        assert c[k] == Space && c[k + 1] == item;
      } else {
        assert c[k] == item && c[k - 1] == Space;
      }
    }
  }

  /** An item that is not separated (a non-string, or the first child) is appended as is. */
  lemma AppendAlone(built: seq<Res>, item: Res)
    requires ProperlySpaced(built) && item != Space && !(item.Str? && built != [])
    ensures ProperlySpaced(built + [item])
  {
    var c := built + [item];
    var n := |built|;
    forall k | 0 <= k < |c|
      ensures (c[k] == Space ==> 0 < k < |c| - 1 && c[k + 1].Str? && c[k + 1] != Space) &&
              (c[k].Str? && c[k] != Space && k > 0 ==> c[k - 1] == Space)
    {
      if k < n - 1 {
        assert c[k] == built[k] && c[k + 1] == built[k + 1];
        if k > 0 {
          assert c[k - 1] == built[k - 1];
        }
      } else if k == n - 1 {
        assert c[k] == built[k];
        if k > 0 {
          assert c[k - 1] == built[k - 1];
        }
      } else {
        assert c[k] == item;
      }
    }
  }

  // ---------------------------------------------------------------------------
  // Whole reductions

  /** Every reduction is well formed; in particular every string it returns is non-empty and stripped. */
  lemma {:induction false} CleanWellFormed(n: Node)
    ensures Clean(n).Some? ==> WellFormed(Clean(n).value)
    decreases n
  {
    match n
    case Text(s) =>
      StripIsStripped(s);
    case Element(name, attrs, cs) =>
      if name == "a" {
        VisibleTextStripped(n);
      } else {
        SurvivorsWellFormed(cs);
        var merged := Merge(Survivors(cs));
        MergeWellFormed(Survivors(cs));
        MergeNoAdjacentStrs(Survivors(cs));
        WrapWellFormed(merged);
      }
  }

  lemma {:induction false} SurvivorsWellFormed(cs: seq<Node>)
    ensures AllWellFormed(Survivors(cs))
    decreases cs
  {
    if cs != [] {
      SurvivorsWellFormed(cs[..|cs| - 1]);
      CleanWellFormed(cs[|cs| - 1]);
    }
  }

  /** Wrapping merged, well-formed items gives a well-formed result. */
  lemma WrapWellFormed(merged: seq<Res>)
    requires AllWellFormed(merged)
    requires NoAdjacentStrs(merged)
    ensures Wrap(merged).Some? ==> WellFormed(Wrap(merged).value)
  {
    if merged != [] && !(|merged| == 1 && merged[0].Str?) {
      forall i | 0 <= i < |merged| ensures merged[i] != Space {
        assert WellFormed(merged[i]);
      }
      SpacedUnspace(merged);
      SpacedProperly(merged);
      SpacedElements(merged);
    }
  }

  /** Every child of a section is a separator or one of the section's items. */
  lemma {:induction false} SpacedElements(items: seq<Res>)
    ensures forall k :: 0 <= k < |Spaced(items)| ==> Spaced(items)[k] == Space || Spaced(items)[k] in items
  {
    if items != [] {
      SpacedElements(items[..|items| - 1]);
      var built := Spaced(items[..|items| - 1]);
      forall k | 0 <= k < |Spaced(items)| ensures Spaced(items)[k] == Space || Spaced(items)[k] in items {
        if k < |built| {
          assert Spaced(items)[k] == built[k];
          assert built[k] == Space || built[k] in items[..|items| - 1];
        }
      }
    }
  }

  /** One more child: its reduction, when truthy, is appended to the survivors. */
  lemma SurvivorsSnoc(cs: seq<Node>, c: Node)
    ensures Survivors(cs + [c]) == Survivors(cs) + Kept(Clean(c))
  {
    var all := cs + [c];
    assert all[..|all| - 1] == cs;
    assert all[|all| - 1] == c;
  }

  /** Siblings are reduced independently: the survivors of two runs of children are concatenated. */
  lemma {:induction false} SurvivorsAppend(a: seq<Node>, b: seq<Node>)
    ensures Survivors(a + b) == Survivors(a) + Survivors(b)
    decreases b
  {
    if b == [] {
      assert a + b == a;
    } else {
      var init, last := b[..|b| - 1], b[|b| - 1];
      assert b == init + [last];
      assert a + b == (a + init) + [last];
      assert Survivors(a + init) == Survivors(a) + Survivors(init) by {
        SurvivorsAppend(a, init);
      }
      SurvivorsSnoc(a + init, last);
      SurvivorsSnoc(init, last);
    }
  }

  // ---------------------------------------------------------------------------
  // Per-case behaviour

  /** A text node reduces to its stripped content, or to nothing exactly when it is all whitespace. */
  lemma CleanTextNode(s: string)
    ensures Clean(Text(s)) == None <==> AllSpace(s)
    ensures !AllSpace(s) ==> Clean(Text(s)) == Some(Str(Strip(s))) && IsWord(Strip(s))
  {
    StripEmptyIff(s);
    StripIsStripped(s);
  }

  /**
   * An `<a>` becomes a link exactly when its href (missing counts as "") starts with
   * "mailto:" or "http", whatever its text; otherwise it reduces to its visible text,
   * and to nothing only when that text is empty.
   */
  lemma CleanAnchor(attrs: map<string, string>, cs: seq<Node>)
    ensures var r := Clean(Element("a", attrs, cs));
      && (r.Some? && r.value.Anchor? <==> KeepsLink(Href(attrs)))
      && (r.Some? && r.value.Anchor? ==> r.value.href == Href(attrs) && r.value.text == VisibleTextAll(cs))
      && (r == None <==> !KeepsLink(Href(attrs)) && VisibleTextAll(cs) == "")
      && (!KeepsLink(Href(attrs)) && VisibleTextAll(cs) != "" ==> r == Some(Str(VisibleTextAll(cs))))
      && ("href" !in attrs ==> !(r.Some? && r.value.Anchor?))
  {
  }

  /** A reduction is truthy exactly when it is not `None`: the filter drops only `None`. */
  lemma CleanTruthy(n: Node)
    ensures Truthy(Clean(n)) <==> Clean(n).Some?
  {
    CleanWellFormed(n);
  }

  /**
   * The reduction of a non-`<a>` element: nothing when no child survives, the bare
   * string when the merge leaves a single string, and otherwise a section whose
   * items, separators removed, are the merged survivors.
   */
  lemma CleanElement(name: string, attrs: map<string, string>, cs: seq<Node>)
    requires name != "a"
    ensures var merged := Merge(Survivors(cs));
      var r := Clean(Element(name, attrs, cs));
      && (r == None <==> Survivors(cs) == [])
      && (|merged| == 1 && merged[0].Str? ==> r == Some(merged[0]))
      && (merged != [] && !(|merged| == 1 && merged[0].Str?) ==> r.Some? && r.value.Section?)
      && (r.Some? && r.value.Section? ==>
            Unspace(r.value.contents) == merged && merged != [] && !(|merged| == 1 && merged[0].Str?))
  {
    var merged := Merge(Survivors(cs));
    MergeHead(Survivors(cs));
    SurvivorsWellFormed(cs);
    MergeWellFormed(Survivors(cs));
    if merged != [] && !(|merged| == 1 && merged[0].Str?) {
      forall i | 0 <= i < |merged| ensures merged[i] != Space {
        assert WellFormed(merged[i]);
      }
      SpacedUnspace(merged);
    }
  }
}

=== FILE: reducer_examples.dfy ===
/**
 * Reductions of small page shapes, including the cases where the reducer does not
 * unwrap a lone item or flatten a nested section.
 */
module ReducerExamples {
  import opened Wrappers
  import opened Strings
  import opened Markup
  import opened Reducer

  lemma CleanWord(w: string)
    requires IsWord(w)
    ensures Clean(Text(w)) == Some(Str(w))
  {
    StripFixesStripped(w);
  }

  lemma SurvivorsOne(c: Node)
    ensures Survivors([c]) == Kept(Clean(c))
  {
    assert [c][..0] == [];
  }

  lemma SurvivorsTwo(c: Node, d: Node)
    ensures Survivors([c, d]) == Kept(Clean(c)) + Kept(Clean(d))
  {
    assert [c, d] == [c] + [d];
    SurvivorsAppend([c], [d]);
    SurvivorsOne(c);
    SurvivorsOne(d);
  }

  lemma SurvivorsThree(c: Node, d: Node, e: Node)
    ensures Survivors([c, d, e]) == Kept(Clean(c)) + Kept(Clean(d)) + Kept(Clean(e))
  {
    assert [c, d, e] == [c, d] + [e];
    SurvivorsAppend([c, d], [e]);
    SurvivorsTwo(c, d);
    SurvivorsOne(e);
  }

  lemma VisibleTextOne(c: Node)
    ensures VisibleTextAll([c]) == VisibleText(c)
  {
    assert [c][..0] == [];
  }

  lemma KeptLink(href: string, cs: seq<Node>)
    requires KeepsLink(href)
    ensures Clean(Element("a", map["href" := href], cs)) == Some(Anchor(href, VisibleTextAll(cs)))
  {
    var n := Element("a", map["href" := href], cs);
    assert Href(n.attrs) == href;
    assert VisibleText(n) == VisibleTextAll(cs);
  }

  lemma Generic(name: string, cs: seq<Node>)
    requires name != "a"
    ensures Clean(Element(name, map[], cs)) == Wrap(Merge(Survivors(cs)))
  {
  }

  lemma MergeTwo(x: Res, y: Res)
    requires !(x.Str? && y.Str?)
    ensures Merge([x, y]) == [x, y]
  {
    assert [x, y][1..] == [y];
    assert Merge([y]) == [y] + Merge([]);
  }

  lemma MergeTwoStrs(a: string, b: string)
    ensures Merge([Str(a), Str(b)]) == [Str(a + " " + b)]
  {
    assert [Str(a), Str(b)][1..] == [Str(b)];
    assert Merge([Str(b)]) == [Str(b)] + Merge([]);
  }

  lemma WrapOne(x: Res)
    requires !x.Str?
    ensures Wrap([x]) == Some(Section([x]))
  {
    SpacedSnoc([], x);
    assert [] + [x] == [x];
  }

  lemma LoneString(name: string, w: string)
    requires name != "a" && IsWord(w)
    ensures Clean(Element(name, map[], [Text(w)])) == Some(Str(w))
  {
    CleanWord(w);
    SurvivorsOne(Text(w));
    Generic(name, [Text(w)]);
    assert Merge([Str(w)]) == [Str(w)];
  }

  lemma LoneEmptyLink(name: string, href: string)
    requires name != "a" && KeepsLink(href)
    ensures Clean(Element(name, map[], [Element("a", map["href" := href], [])])) == Some(Section([Anchor(href, "")]))
  {
    var link := Element("a", map["href" := href], []);
    KeptLink(href, []);
    SurvivorsOne(link);
    assert Merge([Anchor(href, "")]) == [Anchor(href, "")];
    WrapOne(Anchor(href, ""));
    Generic(name, [link]);
  }

  /** A kept link's text is its content with the surrounding whitespace stripped. */
  lemma PaddedLinkKept(href: string, before: string, w: string, after: string)
    requires KeepsLink(href) && AllSpace(before) && AllSpace(after) && IsWord(w)
    ensures Clean(Element("a", map["href" := href], [Text(before + w + after)])) == Some(Anchor(href, w))
  {
    StripPadded(before, w, after);
    VisibleTextOne(Text(before + w + after));
  }

  /** A link that is not kept is demoted to its text. */
  lemma OtherLinkDemoted(href: string, w: string)
    requires !KeepsLink(href) && IsWord(w)
    ensures Clean(Element("a", map["href" := href], [Text(w)])) == Some(Str(w))
  {
    StripFixesStripped(w);
    VisibleTextOne(Text(w));
  }

  /** Which hrefs are kept: a bare prefix test, so "httpx:" qualifies and a relative path does not. */
  lemma LinkPrefixes()
    ensures KeepsLink("mailto:a@b.com")
    ensures KeepsLink("httpx:y")
    ensures !KeepsLink("/relative/path")
    ensures !KeepsLink("")
  {
    assert "mailto:a@b.com"[..7] == "mailto:";
    assert "httpx:y"[..4] == "http";
    assert "/relative/path"[0] != "http"[0];
    assert "/relative/path"[0] != "mailto:"[0];
  }

  /** A kept link with no text at all is still kept. */
  lemma EmptyLinkKept(href: string)
    requires KeepsLink(href)
    ensures Clean(Element("a", map["href" := href], [])) == Some(Anchor(href, ""))
  {
    KeptLink(href, []);
  }

  lemma BlankDropped(blank: string)
    requires AllSpace(blank)
    ensures Kept(Clean(Text(blank))) == []
  {
    CleanTextNode(blank);
  }

  lemma WordKept(w: string)
    requires IsWord(w)
    ensures Kept(Clean(Text(w))) == [Str(w)]
  {
    CleanWord(w);
  }

  lemma UnwrappedKept(w: string)
    requires IsWord(w)
    ensures Kept(Clean(Element("div", map[], [Text(w)]))) == [Str(w)]
  {
    assert Clean(Element("div", map[], [Text(w)])) == Some(Str(w)) by {
      LoneString("div", w);
    }
  }

  lemma SurvivorsAfterUnwrap(blank: string, hello: string, world: string)
    requires AllSpace(blank) && IsWord(hello) && IsWord(world)
    ensures Survivors([Text(blank), Element("div", map[], [Text(hello)]), Text(world)]) == [Str(hello), Str(world)]
  {
    var inner := Element("div", map[], [Text(hello)]);
    assert Survivors([Text(blank), inner, Text(world)])
        == Kept(Clean(Text(blank))) + Kept(Clean(inner)) + Kept(Clean(Text(world))) by {
      SurvivorsThree(Text(blank), inner, Text(world));
    }
    BlankDropped(blank);
    UnwrappedKept(hello);
    WordKept(world);
    assert [] + [Str(hello)] + [Str(world)] == [Str(hello), Str(world)];
  }

  /** A blank child is dropped and a nested element's lone string merges with its next sibling. */
  lemma MergeAfterUnwrap(blank: string, hello: string, world: string)
    requires AllSpace(blank) && IsWord(hello) && IsWord(world)
    ensures Clean(Element("div", map[], [Text(blank), Element("div", map[], [Text(hello)]), Text(world)]))
         == Some(Str(hello + " " + world))
  {
    var cs := [Text(blank), Element("div", map[], [Text(hello)]), Text(world)];
    SurvivorsAfterUnwrap(blank, hello, world);
    MergeTwoStrs(hello, world);
    Generic("div", cs);
  }

  /** An empty element, and one holding only a link with an empty href and no text, reduce to nothing. */
  lemma EmptyElements(name: string)
    requires name != "a"
    ensures Clean(Element(name, map[], [])) == None
    ensures Clean(Element(name, map[], [Element("a", map["href" := ""], [])])) == None
  {
    LinkPrefixes();
    SurvivorsOne(Element("a", map["href" := ""], []));
  }

  /** A lone link is not unwrapped: it is wrapped in a one-item section. */
  lemma LoneLinkWrapped(name: string, href: string, w: string)
    requires name != "a" && KeepsLink(href) && IsWord(w)
    ensures Clean(Element(name, map[], [Element("a", map["href" := href], [Text(w)])]))
         == Some(Section([Anchor(href, w)]))
  {
    var link := Element("a", map["href" := href], [Text(w)]);
    var a := Anchor(href, w);
    StripFixesStripped(w);
    VisibleTextOne(Text(w));
    KeptLink(href, [Text(w)]);
    SurvivorsOne(link);
    WrapOne(a);
    Generic(name, [link]);
  }

  lemma SurvivorsAroundLink(href: string, x: string, hi: string, there: string)
    requires KeepsLink(href) && IsWord(x) && IsWord(hi) && IsWord(there)
    ensures Survivors([Text(hi), Element("a", map["href" := href], [Text(x)]), Text(there)])
         == [Str(hi), Anchor(href, x), Str(there)]
  {
    var link := Element("a", map["href" := href], [Text(x)]);
    assert Clean(link) == Some(Anchor(href, x)) by {
      StripFixesStripped(x);
      VisibleTextOne(Text(x));
      KeptLink(href, [Text(x)]);
    }
    CleanWord(hi);
    CleanWord(there);
    SurvivorsThree(Text(hi), link, Text(there));
  }

  lemma SpacedAroundTag(hi: string, a: Res, there: string)
    requires !a.Str?
    ensures Spaced([Str(hi), a, Str(there)]) == [Str(hi), a, Space, Str(there)]
  {
    var s1 := [Str(hi)];
    var s2 := s1 + [a];
    var s3 := s2 + [Str(there)];
    assert Spaced(s1) == s1 by {
      SpacedSnoc([], Str(hi));
      assert [] + [Str(hi)] == s1;
    }
    assert Spaced(s2) == s2 by {
      SpacedSnoc(s1, a);
    }
    assert Spaced(s3) == s2 + [Space, Str(there)] by {
      SpacedSnoc(s2, Str(there));
    }
    assert s3 == [Str(hi), a, Str(there)];
  }

  /** A separator goes before a string that follows a link, and not before the link. */
  lemma SpacingAroundLink(name: string, href: string, x: string, hi: string, there: string)
    requires name != "a" && KeepsLink(href) && IsWord(x) && IsWord(hi) && IsWord(there)
    ensures Clean(Element(name, map[], [Text(hi), Element("a", map["href" := href], [Text(x)]), Text(there)]))
         == Some(Section([Str(hi), Anchor(href, x), Space, Str(there)]))
  {
    var a := Anchor(href, x);
    var cs := [Text(hi), Element("a", map["href" := href], [Text(x)]), Text(there)];
    var items := [Str(hi), a, Str(there)];
    SurvivorsAroundLink(href, x, hi, there);
    assert Merge(items) == items by {
      assert items[1..] == [a, Str(there)];
      MergeTwo(a, Str(there));
    }
    SpacedAroundTag(hi, a, there);
    Generic(name, cs);
  }

  /** A child section is appended as one item, not flattened into its parent. */
  lemma NestedSectionKept(href: string, w: string)
    requires KeepsLink(href) && IsWord(w)
    ensures Clean(Element("div", map[], [Text(w), Element("p", map[], [Element("a", map["href" := href], [])])]))
         == Some(Section([Str(w), Section([Anchor(href, "")])]))
  {
    var link := Element("a", map["href" := href], []);
    var inner := Element("p", map[], [link]);
    var a := Anchor(href, "");
    LoneEmptyLink("p", href);
    CleanWord(w);
    SurvivorsTwo(Text(w), inner);
    var items := [Str(w), Section([a])];
    assert Survivors([Text(w), inner]) == items;
    MergeTwo(Str(w), Section([a]));
    assert Spaced(items) == items by {
      SpacedSnoc([], Str(w));
      assert [] + [Str(w)] == [Str(w)];
      SpacedSnoc([Str(w)], Section([a]));
      assert [Str(w)] + [Section([a])] == items;
    }
    Generic("div", [Text(w), inner]);
  }

  /** A body holding only a script reduces to nothing once scripts are removed. */
  lemma ScriptOnlyBody(code: string)
    ensures Clean(Prune(Element("body", map[], [Element("script", map[], [Text(code)])]))) == None
  {
    var script := Element("script", map[], [Text(code)]);
    assert [script][..0] == [];
    assert PruneAll([script]) == [];
  }
}

=== FILE: strings.dfy ===
/**
 * Python string operations the reducer relies on: `str.strip()`, `str.startswith`,
 * the `in` substring test and `' '.join`. Whitespace is the fixed set of code points
 * for which Python's `str.isspace()` holds.
 */
module Strings {

  /** Python's `str.isspace()` for a single character. */
  predicate IsSpace(c: char)
  {
    c == ' ' || ('\U{9}' <= c <= '\U{D}') || ('\U{1C}' <= c <= '\U{1F}')
    || c == '\U{85}' || c == '\U{A0}' || c == '\U{1680}'
    || ('\U{2000}' <= c <= '\U{200A}') || c == '\U{2028}' || c == '\U{2029}'
    || c == '\U{202F}' || c == '\U{205F}' || c == '\U{3000}'
  }

  /** ASCII decimal digit, the model's reading of the regex class `\d`. */
  predicate IsDigit(c: char)
  {
    '0' <= c <= '9'
  }

  predicate AllSpace(s: string)
  {
    forall i :: 0 <= i < |s| ==> IsSpace(s[i])
  }

  /** A string that `strip()` leaves alone: empty, or bounded by non-whitespace. */
  predicate IsStripped(s: string)
  {
    s == [] || (!IsSpace(s[0]) && !IsSpace(s[|s| - 1]))
  }

  /** One step of `lstrip()`: a leading whitespace character is dropped as well. */
  lemma SpaceBefore(s: string, r: string)
    requires s != [] && IsSpace(s[0])
    requires |r| <= |s| - 1 && r == s[1..][|s| - 1 - |r|..] && AllSpace(s[1..][..|s| - 1 - |r|])
    ensures r == s[|s| - |r|..] && AllSpace(s[..|s| - |r|])
  {
    assert s[..|s| - |r|] == [s[0]] + s[1..][..|s| - 1 - |r|];
  }

  /** One step of `rstrip()`: a trailing whitespace character is dropped as well. */
  lemma SpaceAfter(s: string, r: string)
    requires s != [] && IsSpace(s[|s| - 1])
    requires |r| <= |s| - 1 && r == s[..|s| - 1][..|r|] && AllSpace(s[..|s| - 1][|r|..])
    ensures r == s[..|r|] && AllSpace(s[|r|..])
  {
    assert s[|r|..] == s[..|s| - 1][|r|..] + [s[|s| - 1]];
  }

  /** `str.lstrip()`: the suffix left after dropping all leading whitespace. */
  function StripLeft(s: string): (r: string)
    ensures |r| <= |s| && r == s[|s| - |r|..]
    ensures AllSpace(s[..|s| - |r|])
    ensures r == [] || !IsSpace(r[0])
  {
    if s != [] && IsSpace(s[0]) then
      var r := StripLeft(s[1..]);
      SpaceBefore(s, r);
      r
    else s
  }

  /** `str.rstrip()`: the prefix left after dropping all trailing whitespace. */
  function StripRight(s: string): (r: string)
    ensures |r| <= |s| && r == s[..|r|]
    ensures AllSpace(s[|r|..])
    ensures r == [] || !IsSpace(r[|r| - 1])
  {
    if s != [] && IsSpace(s[|s| - 1]) then
      var r := StripRight(s[..|s| - 1]);
      SpaceAfter(s, r);
      r
    else s
  }

  /** `str.strip()`. */
  function Strip(s: string): string
  {
    StripRight(StripLeft(s))
  }

  /** The result of `strip()` is stripped. */
  lemma StripIsStripped(s: string)
    ensures IsStripped(Strip(s))
  {
    var l := StripLeft(s);
    var r := StripRight(l);
    if r != [] {
      assert r[0] == l[0];
    }
  }

  /** `strip()` gives the empty string exactly when the input is all whitespace. */
  lemma StripEmptyIff(s: string)
    ensures Strip(s) == [] <==> AllSpace(s)
  {
    var l := StripLeft(s);
    if l != [] {
      assert l[0] == s[|s| - |l|];
    }
  }

  /** A stripped string is its own `strip()`. */
  lemma StripFixesStripped(s: string)
    requires IsStripped(s)
    ensures Strip(s) == s
  {
  }

  /** Stripping twice is stripping once. */
  lemma StripIdempotent(s: string)
    ensures Strip(Strip(s)) == Strip(s)
  {
    StripIsStripped(s);
    StripFixesStripped(Strip(s));
  }

  /** Gluing two stripped strings together, with nothing in between, keeps them stripped. */
  lemma ConcatStripped(a: string, b: string)
    requires IsStripped(a) && IsStripped(b)
    ensures IsStripped(a + b)
  {
    if a == [] {
      assert a + b == b;
    } else if b != [] {
      assert (a + b)[|a + b| - 1] == b[|b| - 1];
    }
  }

  /** Stripping a word padded with whitespace on both sides gives the word back. */
  lemma StripPadded(a: string, w: string, b: string)
    requires AllSpace(a) && AllSpace(b) && IsWord(w)
    ensures Strip(a + w + b) == w
  {
    var t := w + b;
    assert a + w + b == a + t;
    assert StripLeft(a + t) == t by {
      StripLeftPadded(a, t);
    }
    assert StripRight(t) == w by {
      StripRightPadded(w, b);
    }
  }

  lemma {:induction false} StripLeftPadded(a: string, t: string)
    requires AllSpace(a) && (t == [] || !IsSpace(t[0]))
    ensures StripLeft(a + t) == t
  {
    if a == [] {
      assert a + t == t;
    } else {
      assert (a + t)[1..] == a[1..] + t;
      StripLeftPadded(a[1..], t);
    }
  }

  lemma {:induction false} StripRightPadded(t: string, b: string)
    requires AllSpace(b) && (t == [] || !IsSpace(t[|t| - 1]))
    ensures StripRight(t + b) == t
  {
    if b == [] {
      assert t + b == t;
    } else {
      assert (t + b)[..|t + b| - 1] == t + b[..|b| - 1];
      StripRightPadded(t, b[..|b| - 1]);
    }
  }

  /** `s.startswith(p)`. */
  predicate StartsWith(s: string, p: string)
  {
    |p| <= |s| && s[..|p|] == p
  }

  /** Python's `p in s` for strings. */
  predicate Contains(s: string, p: string)
  {
    StartsWith(s, p) || (s != [] && Contains(s[1..], p))
  }

  /** `' '.join(parts)`. */
  function Join(parts: seq<string>): string
  {
    if parts == [] then ""
    else if |parts| == 1 then parts[0]
    else parts[0] + " " + Join(parts[1..])
  }

  /** Non-empty stripped strings, used by the reducer for every text piece it keeps. */
  predicate IsWord(s: string)
  {
    s != [] && IsStripped(s)
  }

  /** Two non-empty stripped pieces joined by one space give a non-empty stripped piece. */
  lemma JoinTwoWords(a: string, b: string)
    requires IsWord(a) && IsWord(b)
    ensures IsWord(a + " " + b)
  {
    assert (a + " " + b)[0] == a[0];
    assert (a + " " + b)[|a + " " + b| - 1] == b[|b| - 1];
  }

  /** Joining non-empty stripped pieces with single spaces gives a non-empty stripped string. */
  lemma {:induction false} JoinWords(parts: seq<string>)
    requires parts != []
    requires forall i :: 0 <= i < |parts| ==> IsWord(parts[i])
    ensures IsWord(Join(parts))
  {
    if |parts| > 1 {
      JoinWords(parts[1..]);
      JoinTwoWords(parts[0], Join(parts[1..]));
    }
  }
}

=== FILE: wrappers.dfy ===
/** The usual optional-value datatype; `None` stands for Python's `None`. */
module Wrappers {

  datatype Option<+T> = None | Some(value: T)

}
